=== FILE: README.md ===
# rehook, modelled in Dafny

rehook is a small webhook gateway. Hooks are named endpoints kept in a
key/value store (bolt). Components are attached to hooks and process every
incoming request:

- filters: the rate limiter;
- validators: the GitHub and Mailgun signature checks;
- actions: send an e-mail through Mailgun, forward the request, execute a
  command.

This project models the hook store, the administrative copies of its
operations, the component registry, the request snapshot and the six
components. Each component has three parts:

- `Params` reads back the stored configuration.
- `Init` validates and stores the configuration.
- `Process` handles one request.

Every operation is a pure function over immutable values, or a method when
a loop is needed:

- A bolt bucket is a `map<string, string>` of flat entries (`Store.Bucket`).
- A nested bucket that only records which keys exist is a `set` of keys.
- The counter partition is a `map<string, int>`.
- Go's `error` is the `Results.Error` datatype. Its constructors mirror the
  shapes the code builds: `errors.New`, `fmt.Errorf("ctx: %s", err)`, a
  status-code message, the rate-limit message, the content-type message,
  and the `strconv` syntax and range errors.
- A call that fails is modelled as leaving the store unchanged. That is
  what a bolt update transaction returning that error does.
- Calls into code outside the repository are parameters of the model. These
  are: HMAC-SHA1 and HMAC-SHA256, `url.Parse`, `url.ParseQuery`, the
  template engine, `http.NewRequest`, the HTTP client's `Do`, running
  `sh -c`, and the current time. Whatever such a call returns is what the
  model computes with.

Modules follow the source files:

- `Results`: Option, Result, Error.
- `Encoding`: bytes, hex encoding, `bytes.TrimSpace`.
- `Strconv`: Go's `strconv.Atoi` and the decimal form of integers.
- `Text`: `strings.TrimSpace` emptiness and the `^[a-z0-9-]+$` id pattern.
- `KeyOrder`: bolt's byte-wise key order and listing in that order.
- `Store`: the `Hook` type, `<id>-<field>` keys, and bolt's `Put` on a set.
- `HookStore`, `AdminHandler`, `Components`, `Http`.
- `RateLimitFilter`, `GithubValidator`, `MailgunValidator`, `EmailAction`,
  `ForwardAction`, `ExecuteAction`.

The request snapshot keeps the FIRST value of a repeated header, because
that is what `Header.Get` returns (components.go:40).

## Model

| member | source | states |
|---|---|---|
| Encoding.Hex | github_validator.go:63 | The hex text is twice as long as the bytes and uses only lower-case hex digits |
| Encoding.UnhexHex | github_validator.go:63 | The lower-case hex text of any bytes decodes back to exactly those bytes, so the encoding loses nothing |
| Encoding.HexInjective | github_validator.go:63-64 | Different MACs have different hex texts, so comparing signature texts compares MACs |
| Encoding.TrimSpace | github_validator.go:62 | The trimmed body is one contiguous slice of the body, neither end of it is white space, and everything cut off is white space |
| Encoding.SurroundingSpaceIgnored | github_validator.go:62 | White space added before or after a body does not change what is signed |
| Encoding.TrimSpaceIdempotent | github_validator.go:62 | Trimming a trimmed body changes nothing |
| Strconv.Atoi | rate_limit_filter.go:44-55 | No error exactly for an optionally signed run of digits whose value fits 64 bits, and then that value. A syntax error, with value 0, exactly when the text is not such a run and its leading digits do not already overflow 64 bits. Otherwise a range error with the value clamped to the bound on the side of the sign |
| Strconv.Decimal | hook_store.go:86 | The decimal form of a natural number is a non-empty run of digits that denotes the number and has no leading zero |
| Strconv.OverflowBeforeSyntax | rate_limit_filter.go:44-55 | A run of digits that overflows 64 bits makes `Atoi` report a range error whatever follows it, because the scan stops at the overflow |
| Strconv.AtoiItoa | rate_limit_filter.go:44-55 | Every 64-bit integer's decimal form parses back to that integer without error |
| Text.MatchesIdPattern | hook_store.go:57-62 | The pattern `^[a-z0-9-]+$` accepts a string exactly when it is non-empty and made only of lower-case letters, digits and dashes |
| Text.ValidIsNotBlank | hook_store.go:53-61 | An id the pattern accepts is never blank, so the blank check only fires on ids the pattern rejects too |
| KeyOrder.BelowTransitive | hook_store.go:29-32 | Bolt's byte-wise key order is transitive |
| KeyOrder.BelowTotal | hook_store.go:29-32 | Any two different keys are ordered one way or the other |
| KeyOrder.BelowIrreflexive | hook_store.go:29-32 | No key comes before itself |
| KeyOrder.BelowAsymmetric | hook_store.go:29-32 | Two keys are never each before the other |
| KeyOrder.LeastExists | hook_store.go:30 | A non-empty set of keys has a first key, which is where a cursor starts |
| KeyOrder.Sorted | hook_store.go:29-32 | A cursor walk visits exactly the stored keys, each once, in strictly ascending order |
| Store.Insert | github_validator.go:74 | Bolt's `Put` refuses an empty key with "key required" and otherwise adds the key |
| Store.FieldOfKey | github_validator.go:45 | A dash-free field name can be read back from an `<id>-<field>` key as the text after its last dash |
| Store.KeyInjective | github_validator.go:45 | Two `<id>-<field>` keys with dash-free field names are equal only for the same hook and field, so hooks never overwrite each other's settings |
| HookStore.List | hook_store.go:27-36 | Lists exactly the hooks `Find` finds, each once, in ascending id order |
| HookStore.Find | hook_store.go:39-49 | Finds a hook exactly when its id is stored; otherwise fails with "hook does not exist" |
| HookStore.Create | hook_store.go:52-72 | Checks blank, then pattern, then duplicate, each with its own message; succeeds exactly for a valid new id, adding only that id |
| HookStore.Delete | hook_store.go:75-79 | Always succeeds, also for a missing id; removes only that id and leaves the counters alone |
| HookStore.CreateThenFind | hook_store.go:52-72 | A created hook is found afterwards |
| HookStore.CreateKeepsOthers | hook_store.go:64-71 | Creating a hook does not change whether any other hook is found |
| HookStore.CreateTwiceFails | hook_store.go:64-68 | Creating the same hook again fails with "a hook with that id already exists" |
| HookStore.DeleteThenFind | hook_store.go:75-79 | A deleted hook is no longer found, and every other hook is found as before |
| HookStore.Pad | hook_store.go:86 | The padded text is exactly as long as the larger of the width and the text, and is the text preceded by nothing but '0' characters |
| HookStore.HourLabelFormat | hook_store.go:86 | For a year from 0 to 9999 the hour label is 13 characters with dashes at positions 4, 7 and 10, and its four fields read back as the year, month, day and hour |
| HookStore.HourKeyIsNotTotal | hook_store.go:86-90 | The hourly counter key never coincides with the hook's total counter key |
| HookStore.Increment | hook_store.go:94-109 | A counter goes up by exactly one and starts at one when absent; no other counter changes |
| HookStore.Inc | hook_store.go:82-92 | One delivery raises the hour's counter and the total by exactly one each, changes nothing else, and does not need the hook to exist |
| HookStore.IncrementCommutes | hook_store.go:94-109 | Raising two counters gives the same counters in either order |
| HookStore.IncCommutes | hook_store.go:82-92 | Two deliveries leave the same counters whichever is counted first |
| AdminHandler.ListHooks | admin_handler.go:67-76 | Lists every stored hook name exactly once, in ascending key order |
| AdminHandler.FindHook | admin_handler.go:78-88 | Finds a hook exactly when the name is stored; otherwise fails with "hook does not exist" |
| AdminHandler.CreateHook | admin_handler.go:90-110 | Same three checks in the same order as the hook store, with name-based messages; succeeds exactly for a valid new name |
| AdminHandler.DeleteHook | admin_handler.go:112-116 | Always succeeds and removes only that name |
| AdminHandler.CreateHookAgreesWithCreate | admin_handler.go:90-110 | The administrative create and the hook store's create accept the same names, leave the same state, and fail for the same reason in different words |
| AdminHandler.FindAndDeleteAgree | admin_handler.go:78-116 | The administrative find and delete behave exactly like the hook store's |
| Components.RegisterComponent | components.go:16-21 | A nil component panics with "cannot register nil component"; otherwise the name is bound to the component and every other binding stays |
| Components.RegisterTwiceOverwrites | components.go:16-21 | Registering a name twice keeps the second component; there is no duplicate check |
| Components.LoadRequest | components.go:36-44 | The snapshot keeps the method and body, has one entry per header name, and holds that header's first value ("" when it has none) |
| Components.LaterValuesIgnored | components.go:39-41 | Later values of a repeated header do not change the snapshot |
| RateLimitFilter.Params | rate_limit_filter.go:28-36 | Reports exactly the `amount` and `interval` settings |
| RateLimitFilter.Init | rate_limit_filter.go:38-65 | Checks in this order: amount present, amount a positive integer, interval present, interval a positive integer; each failure has its own error, and the parse error is carried along. On success both strings are stored verbatim and the window is untouched |
| RateLimitFilter.Process | rate_limit_filter.go:69-105 | An unconfigured hook is refused. The request counts as one timestamp. It is refused exactly when more than `amount` timestamps lie at or after the window start. An admitted request keeps exactly the timestamps after the window start |
| RateLimitFilter.ParamsAfterInit | rate_limit_filter.go:28-65 | After `Init`, `Params` gives back the amount and interval passed in |
| RateLimitFilter.KeyDistinct | rate_limit_filter.go:57-60 | A hook's amount and interval keys differ |
| RateLimitFilter.InitIsolated | rate_limit_filter.go:57-60 | Configuring one hook leaves every other hook's settings alone |
| RateLimitFilter.InitOverwrites | rate_limit_filter.go:57-62 | Configuring a hook twice is the same as configuring it once with the second settings |
| RateLimitFilter.InitAcceptsDecimals | rate_limit_filter.go:44-55 | The decimal form of every positive 64-bit amount and interval is accepted |
| RateLimitFilter.InitAcceptsExactly | rate_limit_filter.go:39-55 | `Init` succeeds exactly when both settings are present and are optionally signed runs of digits denoting values from 1 to the largest 64-bit integer |
| RateLimitFilter.InitThenConfigured | rate_limit_filter.go:38-74 | A hook configured by `Init` is never refused as not initialized |
| RateLimitFilter.CountIncludesCurrent | rate_limit_filter.go:78-93 | The request being handled is always counted |
| RateLimitFilter.FullWindowRejects | rate_limit_filter.go:85-96 | Once `amount` earlier requests lie inside the window, the next one is refused |
| RateLimitFilter.EmptyWindowAdmits | rate_limit_filter.go:85-103 | A request whose window is otherwise empty is admitted, and afterwards the window holds that request alone |
| RateLimitFilter.WindowSharedBetweenHooks | rate_limit_filter.go:76-96 | The timestamp window is shared between hooks: one hook's request can get another hook's request refused |
| GithubValidator.Params | github_validator.go:31-37 | Reports exactly the `secret` setting |
| GithubValidator.Init | github_validator.go:40-50 | Fails with "secret is required" exactly when no secret is given; otherwise stores it and changes no other key |
| GithubValidator.Process | github_validator.go:53-75 | Checks in this order: configured, signature equal to "sha1=" plus the hex HMAC of the trimmed body, delivery id new, each with its own error ("github validator not initialized", "invalid signature", "duplicate delivery"). An empty delivery id then fails with the store's "key required". It succeeds exactly when all pass and the id is not empty, and then records the id |
| GithubValidator.DuplicateRejected | github_validator.go:68-73 | A correctly signed request with a known delivery id fails with "duplicate delivery" |
| GithubValidator.ReplayRejected | github_validator.go:68-74 | Replaying an accepted request fails |
| GithubValidator.SignatureDeterminesMac | github_validator.go:59-66 | A signature passes exactly when it encodes the HMAC of the trimmed body under the stored secret |
| GithubValidator.BodySpaceIgnored | github_validator.go:61-62 | White space around the body never changes the outcome |
| GithubValidator.ParamsAfterInit | github_validator.go:31-50 | After `Init`, `Params` gives back the secret |
| GithubValidator.InitIsolated | github_validator.go:45 | Configuring one hook leaves every other hook's secret alone |
| GithubValidator.InitThenValid | github_validator.go:40-75 | After `Init`, a correctly signed request with a new, non-empty delivery id is accepted |
| MailgunValidator.Params | mailgun_validator.go:31-37 | Reports exactly the `apikey` setting |
| MailgunValidator.Init | mailgun_validator.go:41-51 | Fails with "apikey is required" exactly when no key is given; otherwise stores it and changes no other key |
| MailgunValidator.Process | mailgun_validator.go:54-87 | Checks in this order, each with its own error: configured; content type exactly `application/x-www-form-urlencoded`; body parses; signature equal to the hex HMAC of timestamp followed by token; token new. An empty token then fails with the store's "key required". It succeeds exactly when all pass and the token is not empty, and then records the token |
| MailgunValidator.DuplicateRejected | mailgun_validator.go:81-85 | A correctly signed form with a known token fails with "duplicate request token received" |
| MailgunValidator.ReplayRejected | mailgun_validator.go:81-86 | Replaying an accepted callback fails |
| MailgunValidator.SignatureDeterminesMac | mailgun_validator.go:70-79 | A hex signature passes exactly when it encodes the HMAC of the timestamp followed by the token |
| MailgunValidator.SignatureCoversConcatenation | mailgun_validator.go:74-76 | Forms whose timestamp and token join to the same text expect the same signature: the signature does not fix where the timestamp ends |
| MailgunValidator.LaterFieldValuesIgnored | mailgun_validator.go:70-72 | Later values of a repeated form field do not change the outcome; only first values are signed and recorded |
| MailgunValidator.ParamsAfterInit | mailgun_validator.go:31-51 | After `Init`, `Params` gives back the API key |
| MailgunValidator.InitIsolated | mailgun_validator.go:46 | Configuring one hook leaves every other hook's API key alone |
| MailgunValidator.InitThenValid | mailgun_validator.go:41-87 | After `Init`, a correctly signed form with a new, non-empty token is accepted |
| EmailAction.Params | email_action.go:33-39 | Reports exactly the five settings, each "" when absent |
| EmailAction.FirstMissing | email_action.go:45-68 | Finds the first missing setting in checking order: every earlier one is present, and the one found is absent |
| EmailAction.Init | email_action.go:43-87 | The first missing setting is reported as "<name> is required", then a template that does not parse is reported as "invalid template". Succeeds exactly when all five are present and the template parses |
| EmailAction.InitStores | email_action.go:74-86 | A successful `Init` writes exactly the hook's five keys, each with the value given, and leaves every other key alone |
| EmailAction.FieldKeysDistinct | email_action.go:74-86 | The five keys of a hook are pairwise different |
| EmailAction.ParamsAfterInit | email_action.go:33-87 | After `Init`, `Params` gives back the five settings passed in |
| EmailAction.InitIsolated | email_action.go:74-86 | Configuring one hook leaves every other hook's settings alone |
| EmailAction.WrittenElsewhere | email_action.go:74-86 | Writing one hook's settings does not change any key of another hook |
| EmailAction.InitThenConfigured | email_action.go:43-104 | After `Init` the hook is configured and its stored template parses |
| EmailAction.MailRequest | email_action.go:118-132 | A message is a POST to the domain's messages URL with basic auth `api` and the token, the given user agent and form content type, and exactly the from, to, subject and text fields |
| EmailAction.MailRequestInjective | email_action.go:118-132 | The request sent determines the token, domain, address, subject and text |
| EmailAction.DomainFromUrl | email_action.go:125 | The domain can be read back from the messages URL |
| EmailAction.SendMail | email_action.go:118-147 | A request that cannot be built passes its error on, and so does a transport error. A status of 300 or above becomes the status error. Succeeds exactly when the message is answered below 300 |
| EmailAction.Process | email_action.go:91-116 | Checks in this order, each with its own error: all five settings present, template parses, template executes. Otherwise the result is that of mailing the rendered text with the stored settings |
| EmailAction.ProcessOkSent | email_action.go:91-147 | A successful `Process` means the hook is configured, its stored template parses and executes, and the mail request built from the stored settings and the rendered text was answered with a status below 300 |
| ForwardAction.Init | forward_action.go:23-34 | Fails with "url is required" first, then "url is not valid" with the parse error. Succeeds exactly for a URL that parses, storing it and changing no other key |
| ForwardAction.ForwardHeaders | forward_action.go:47-60 | `Connection` is dropped and every other header is copied. The incoming `User-Agent` moves to `X-Forwarded-User-Agent`, and rehook's own agent string becomes `User-Agent` |
| ForwardAction.Forwarded | forward_action.go:42-60 | The forwarded request keeps the method and body, goes to the stored URL, carries the forwarded headers and no credentials |
| ForwardAction.Process | forward_action.go:36-72 | Checks configured, then request built, then transport, then status below 300, each with its own error; succeeds exactly when the forwarded request is answered below 300 |
| ForwardAction.RestoreForwarded | forward_action.go:47-60 | Without `Connection` and a forwarded agent of its own, the incoming headers can be rebuilt from the forwarded ones |
| ForwardAction.OrderMattersOnlyForBothAgents | forward_action.go:47-58 | The map iteration order matters only when both agent headers are present |
| ForwardAction.InitThenForwards | forward_action.go:23-72 | After `Init`, every request goes to the configured URL and succeeds exactly when it is built and answered below 300 |
| ForwardAction.InitIsolated | forward_action.go:33 | Configuring one hook leaves every other hook's URL alone |
| ExecuteAction.Params | execute_action.go:28-34 | Reports exactly the `command` setting |
| ExecuteAction.Init | execute_action.go:37-44 | Fails with "command is required" exactly when no command is given; otherwise stores it and changes no other key |
| ExecuteAction.ProcessAsWritten | execute_action.go:47-61 | An unconfigured hook gets the forward action's message. Otherwise the command's error is passed on unchanged, and the call succeeds exactly when the command does |
| ExecuteAction.Process | execute_action.go:47-61 | The same, except that an unconfigured hook gets a message naming the execute action |
| ExecuteAction.AsWrittenMisattributes | execute_action.go:49-51 | As written, a hook with neither action configured gets the very same error from the execute action as from the forward action, each reading its own partition |
| ExecuteAction.NotInitializedAttributed | execute_action.go:49-51 | The corrected error never equals anything the forward action returns, whatever the forward action's partition holds |
| ExecuteAction.CorrectionOnlyRewords | execute_action.go:53-60 | For a configured hook the corrected and as-written versions agree |
| ExecuteAction.ParamsAfterInit | execute_action.go:28-44 | After `Init`, `Params` gives back the command |
| ExecuteAction.InitIsolated | execute_action.go:43 | Configuring one hook leaves every other hook's command alone |
| ExecuteAction.InitThenRuns | execute_action.go:37-61 | After `Init`, every request runs exactly the configured command and shares its outcome |

## Left out

- HTTP handlers, HTML templates, the web interface and the server set-up:
  this is I/O around the modelled operations.
- The code that runs a hook's components for an incoming request is not
  part of this model. Neither are the write-file and log actions, nor the
  `Name` and `Template` methods, which only return constants.
- `loadRequest` can fail while reading the body. In the model the body is
  given, so that error path is not modelled.
- Logging (`log.Printf`) has no effect on any result and is not modelled.
- The forward action has no `Params` method in the source, so the model has
  none either. As written, the type therefore does not satisfy the
  component interface.
- `UserAgent`, which the e-mail action sends, is defined outside the
  modelled files. It is a parameter of `EmailAction.SendMail`.
- Gob encoding of counters is modelled as storing the integer itself, so
  the decode error path of `increment` does not exist in the model.
- Bolt's limits on key and value size, and its I/O errors, are not
  modelled. Every `Put` with a non-empty key succeeds.
- The rate limiter's timestamps are integers, and `Process` takes the
  current time as a parameter.
- The store orders the rate limiter's timestamp keys byte-wise as decimal
  strings. The model orders them as numbers. The two orders agree for
  positive timestamps that have the same number of digits.
- The product `interval × 10^9` nanoseconds can overflow 64 bits for huge
  intervals. The model uses unbounded integers.
- Deleting from bolt while a cursor walks the keys can skip keys. The model
  removes every old timestamp.
- Header names are kept exactly as received. Go canonicalises them, and
  the model assumes the names are already canonical.
- The e-mail form is kept as a map of fields. Its URL encoding is done by
  the HTTP client.
- GithubValidator.Process: white space is trimmed from the body only for
  the six ASCII white-space bytes. The Unicode white space that
  `bytes.TrimSpace` also removes when a body begins or ends with it is not
  trimmed.
- Encoding.TrimSpace: only the six ASCII white-space bytes are trimmed.
  The Unicode white space that `bytes.TrimSpace` also removes is kept.
- HookStore.Inc: the counters are unbounded integers, and Go's 64-bit
  `int` wrap-around after 2^63 − 1 deliveries is not modelled.

## Findings

| source | as written | input that shows it | evidently intended | confidence | as-written member | corrected member |
|---|---|---|---|---|---|---|
| execute_action.go:49-51 | An unconfigured execute action reports "forward request action not initialized", which is the forward action's message | A hook with neither a command nor a URL stored: both actions return the same error | "execute action not initialized", so the error names the component that failed | high, not executed | ExecuteAction.ProcessAsWritten | ExecuteAction.Process |

=== FILE: admin_handler.dfy ===
/** The administrative interface's own copies of the hook store operations.
    They act on the same `hooks` partition and differ from the hook store
    only in the wording of their errors. */
module AdminHandler {
  import opened Results
  import opened Store
  import opened Text
  import KeyOrder
  import HookStore

  /** Every stored hook name exactly once, in the order of their keys. */
  method ListHooks(db: HookStore.Db) returns (hooks: seq<Hook>)
    ensures forall name :: Hook(name) in hooks <==> name in db.hooks
    ensures KeyOrder.Ascending(HookStore.Ids(hooks))
    ensures forall i, j :: 0 <= i < j < |hooks| ==> hooks[i] != hooks[j]
  {
    hooks := HookStore.List(db);
  }

  function FindHook(db: HookStore.Db, name: string): (r: Result<Hook>)
    ensures r.Ok? <==> name in db.hooks
    ensures r.Ok? ==> r.value == Hook(name)
    ensures r.Err? ==> r.error == Message("hook does not exist")
  {
    if name in db.hooks then Ok(Hook(name)) else Err(Message("hook does not exist"))
  }

  /** Adds a hook called `name`: not blank, matching `^[a-z0-9-]+$`, not
      already taken, checked in that order. */
  function CreateHook(db: HookStore.Db, name: string): (r: Result<HookStore.Db>)
    ensures Blank(name) ==> r == Err(Message("hook name is required"))
    ensures !Blank(name) && !ValidId(name) ==>
              r == Err(Message("name contains invalid characters"))
    ensures ValidId(name) && name in db.hooks ==>
              r == Err(Message("a hook with that name already exists"))
    ensures r.Ok? <==> ValidId(name) && name !in db.hooks
    ensures r.Ok? ==> r.value.hooks == db.hooks + {name} && r.value.stats == db.stats
  {
    ValidIsNotBlank(name);
    if Blank(name) then Err(Message("hook name is required"))
    else if !MatchesIdPattern(name) then Err(Message("name contains invalid characters"))
    else if name in db.hooks then Err(Message("a hook with that name already exists"))
    else Ok(db.(hooks := db.hooks + {name}))
  }

  function DeleteHook(db: HookStore.Db, name: string): (r: Result<HookStore.Db>)
    ensures r.Ok?
    ensures r.value.hooks == db.hooks - {name}
    ensures r.value.stats == db.stats
  {
    Ok(db.(hooks := db.hooks - {name}))
  }

  /** The error the hook store reports where the administrative copy
      reports `e`. */
  function StoreWording(e: Error): Error {
    if e == Message("hook name is required") then Message("hook id is required")
    else if e == Message("name contains invalid characters") then
      Message("hook id contains invalid characters")
    else if e == Message("a hook with that name already exists") then
      Message("a hook with that id already exists")
    else e
  }

  /** The two create operations accept exactly the same names, leave the
      same state behind, and fail for the same reason, worded differently. */
  lemma CreateHookAgreesWithCreate(db: HookStore.Db, name: string)
    ensures CreateHook(db, name).Ok? <==> HookStore.Create(db, Hook(name)).Ok?
    ensures CreateHook(db, name).Ok? ==>
              CreateHook(db, name).value == HookStore.Create(db, Hook(name)).value
    ensures CreateHook(db, name).Err? ==>
              StoreWording(CreateHook(db, name).error) == HookStore.Create(db, Hook(name)).error
  {
  }

  /** The two find operations agree, and so do the two delete operations. */
  lemma FindAndDeleteAgree(db: HookStore.Db, name: string)
    ensures FindHook(db, name) == HookStore.Find(db, name)
    ensures DeleteHook(db, name) == HookStore.Delete(db, name)
  {
  }
}

=== FILE: components.dfy ===
/** The component registry and the request snapshot every component is
    handed. */
module Components {
  import opened Results
  import opened Encoding

  /** The registry: component type name to implementation. */
  type Registry<C> = map<string, C>

  /** Registering either yields the new registry or panics. */
  datatype Registration<C> = Registered(registry: Registry<C>) | Panic(message: string)

  /** Binds `name` to `c`. An absent (nil) component panics; a name that is
      already bound is silently rebound. */
  function RegisterComponent<C>(reg: Registry<C>, name: string, c: Option<C>): (r: Registration<C>)
    ensures c.None? <==> r.Panic?
    ensures r.Panic? ==> r.message == "cannot register nil component"
    ensures r.Registered? ==> name in r.registry && r.registry[name] == c.value
    ensures r.Registered? ==> r.registry.Keys == reg.Keys + {name}
    ensures r.Registered? ==> forall n :: n in reg && n != name ==> r.registry[n] == reg[n]
  {
    match c
    case None => Panic("cannot register nil component")
    case Some(comp) => Registered(reg[name := comp])
  }

  /** Registering a name twice keeps only the second component: there is no
      duplicate check. */
  lemma RegisterTwiceOverwrites<C>(reg: Registry<C>, name: string, c1: C, c2: C)
    ensures RegisterComponent(reg, name, Some(c1)).Registered?
    ensures RegisterComponent(RegisterComponent(reg, name, Some(c1)).registry, name, Some(c2))
            == RegisterComponent(reg, name, Some(c2))
  {
  }

  /** The snapshot of an incoming request: the HTTP method, one value per header
      name, and the body. */
  datatype Request = Request(verb: string, headers: map<string, string>, body: Bytes)

  /** `r.Headers[name]`: the header's value, or "" when it is absent. */
  function Header(r: Request, name: string): string {
    if name in r.headers then r.headers[name] else ""
  }

  /** `Header.Get(k)` on a header whose key is already in canonical form:
      its first value, or "" when it has none. */
  function FirstValue(values: seq<string>): string {
    if values == [] then "" else values[0]
  }

  /** The snapshot of an HTTP request with the given method, header lines
      (all values of each name, in arrival order) and body. */
  function LoadRequest(verb: string, header: map<string, seq<string>>, body: Bytes): (r: Request)
    ensures r.verb == verb && r.body == body
    ensures r.headers.Keys == header.Keys
    ensures forall k :: k in header && header[k] != [] ==> r.headers[k] == header[k][0]
    ensures forall k :: k in header && header[k] == [] ==> r.headers[k] == ""
  {
    Request(verb, map k | k in header :: FirstValue(header[k]), body)
  }

  /** A header repeated later in the request does not change the snapshot:
      the first value is the one components see. */
  lemma LaterValuesIgnored(verb: string, header: map<string, seq<string>>, body: Bytes,
                           k: string, later: seq<string>)
    requires k in header && header[k] != []
    ensures LoadRequest(verb, header[k := header[k] + later], body)
            == LoadRequest(verb, header, body)
  {
    var h' := header[k := header[k] + later];
    assert FirstValue(h'[k]) == FirstValue(header[k]);
    assert (map x | x in h' :: FirstValue(h'[x])) == (map x | x in header :: FirstValue(header[x]));
  }
}

=== FILE: email_action.dfy ===
/** The e-mail action: renders the configured template against the hook and
    request and posts the result to the Mailgun messages API. */
module EmailAction {
  import opened Results
  import opened Store
  import opened Components
  import opened Http

  /** The configuration fields, in the order `Init` checks them. */
  const Fields: seq<string> := ["token", "domain", "address", "subject", "template"]

  /** The template engine, supplied by the caller: parsing a template's
      source into a `T`, and executing a parsed template against the hook
      and the request. */
  datatype Templates<!T> = Templates(
    parse: string -> Result<T>,
    execute: (T, Hook, Request) -> Result<string>)

  /** The stored configuration, each field "" when absent. */
  function Params(h: Hook, config: Bucket): (m: map<string, string>)
    ensures m.Keys == set f | f in Fields
    ensures forall f :: f in Fields ==> m[f] == GetString(config, Key(h.id, f))
  {
    map f | f in Fields :: GetString(config, Key(h.id, f))
  }

  /** The position of the first of `fields` missing from `params`;
      `|fields|` when none is. */
  function FirstMissing(params: map<string, string>, fields: seq<string>): (i: nat)
    ensures i <= |fields|
    ensures forall j :: 0 <= j < i ==> fields[j] in params
    ensures i < |fields| ==> fields[i] !in params
  {
    if fields == [] then 0
    else if fields[0] !in params then 0
    else 1 + FirstMissing(params, fields[1..])
  }

  /** `config` with the five fields of `params` written under `h`'s keys. */
  function Written(h: Hook, params: map<string, string>, config: Bucket): Bucket
    requires forall f :: f in Fields ==> f in params
  {
    config[Key(h.id, "token") := params["token"]]
          [Key(h.id, "domain") := params["domain"]]
          [Key(h.id, "address") := params["address"]]
          [Key(h.id, "subject") := params["subject"]]
          [Key(h.id, "template") := params["template"]]
  }

  /** Requires the five fields, in order, and a template that parses; then
      stores the five fields verbatim. */
  function Init<T>(h: Hook, params: map<string, string>, config: Bucket, tpl: Templates<T>): (r: Result<Bucket>)
    ensures FirstMissing(params, Fields) < |Fields| ==>
              r == Err(Message(Fields[FirstMissing(params, Fields)] + " is required"))
    ensures FirstMissing(params, Fields) == |Fields| && tpl.parse(params["template"]).Err? ==>
              r == Err(Wrapped("invalid template", Some(tpl.parse(params["template"]).error)))
    ensures r.Ok? <==> (forall f :: f in Fields ==> f in params) && tpl.parse(params["template"]).Ok?
  {
    var i := FirstMissing(params, Fields);
    if i < |Fields| then Err(Message(Fields[i] + " is required"))
    else
      assert forall f :: f in Fields ==> f in params;
      match tpl.parse(params["template"])
      case Err(e) => Err(Wrapped("invalid template", Some(e)))
      case Ok(_) => Ok(Written(h, params, config))
  }

  /** A successful `Init` writes exactly the five keys of the hook, each
      with the value passed in, and leaves every other key alone. */
  lemma InitStores<T>(h: Hook, params: map<string, string>, config: Bucket, tpl: Templates<T>)
    requires Init(h, params, config, tpl).Ok?
    ensures var c := Init(h, params, config, tpl).value;
            && c.Keys == config.Keys + (set f | f in Fields :: Key(h.id, f))
            && (forall f :: f in Fields ==> c[Key(h.id, f)] == params[f])
            && (forall k :: k in config && (forall f :: f in Fields ==> k != Key(h.id, f)) ==>
                              c[k] == config[k])
  {
    var c := Init(h, params, config, tpl).value;
    assert c == Written(h, params, config);
    WrittenKeys(h, params, config);
    WrittenValues(h, params, config);
    WrittenOthers(h, params, config);
  }

  /** The keys after writing: the old ones and the hook's five. */
  lemma WrittenKeys(h: Hook, params: map<string, string>, config: Bucket)
    requires forall f :: f in Fields ==> f in params
    ensures Written(h, params, config).Keys == config.Keys + (set f | f in Fields :: Key(h.id, f))
  {
    assert Fields == [Fields[0], Fields[1], Fields[2], Fields[3], Fields[4]];
    assert (set f | f in Fields :: Key(h.id, f))
        == {Key(h.id, "token"), Key(h.id, "domain"), Key(h.id, "address"),
            Key(h.id, "subject"), Key(h.id, "template")};
  }

  /** Each of the hook's five keys holds the value passed in. */
  lemma WrittenValues(h: Hook, params: map<string, string>, config: Bucket)
    requires forall f :: f in Fields ==> f in params
    ensures forall f :: f in Fields ==> Written(h, params, config)[Key(h.id, f)] == params[f]
  {
    FieldKeysDistinct(h.id);
    assert Fields == [Fields[0], Fields[1], Fields[2], Fields[3], Fields[4]];
  }

  /** Every other key keeps its value. */
  lemma WrittenOthers(h: Hook, params: map<string, string>, config: Bucket)
    requires forall f :: f in Fields ==> f in params
    ensures forall k :: k in config && (forall f :: f in Fields ==> k != Key(h.id, f)) ==>
                          Written(h, params, config)[k] == config[k]
  {
    assert Fields == [Fields[0], Fields[1], Fields[2], Fields[3], Fields[4]];
  }

  /** The Mailgun messages endpoint for `domain`. */
  function MessagesUrl(domain: string): string {
    "https://api.mailgun.net/v2/" + domain + "/messages"
  }

  /** The request that sends one message. */
  function MailRequest(userAgent: string, token: string, domain: string, address: string,
                       subject: string, text: string): (o: Outgoing)
    ensures o.verb == "POST" && o.url == MessagesUrl(domain)
    ensures o.auth == Some(Credentials("api", token))
    ensures o.headers == map["User-Agent" := userAgent,
                             "Content-Type" := "application/x-www-form-urlencoded"]
    ensures o.body.Form? && o.body.fields.Keys == {"from", "to", "subject", "text"}
    ensures o.body.fields["from"] == "mail@" + domain && o.body.fields["to"] == address
    ensures o.body.fields["subject"] == subject && o.body.fields["text"] == text
  {
    Outgoing("POST", MessagesUrl(domain),
             map["User-Agent" := userAgent, "Content-Type" := "application/x-www-form-urlencoded"],
             Some(Credentials("api", token)),
             Form(map["from" := "mail@" + domain, "to" := address,
                      "subject" := subject, "text" := text]))
  }

  /** Posts one message: an unusable URL and a transport error are passed on
      unchanged, a status of 300 or above is reported with its code. */
  function SendMail(client: Client, userAgent: string, token: string, domain: string,
                    address: string, subject: string, text: string): (r: Result<()>)
    ensures client.check("POST", MessagesUrl(domain)).Some? ==>
              r == Err(client.check("POST", MessagesUrl(domain)).value)
    ensures r.Ok? <==>
              && client.check("POST", MessagesUrl(domain)).None?
              && client.send(MailRequest(userAgent, token, domain, address, subject, text)).Response?
              && Succeeded(client.send(MailRequest(userAgent, token, domain, address, subject, text)).status)
    ensures client.check("POST", MessagesUrl(domain)).None? ==>
              match client.send(MailRequest(userAgent, token, domain, address, subject, text))
              case Failed(e) => r == Err(e)
              case Response(status) =>
                !Succeeded(status) ==> r == Err(Status("send mail unexpected status code received", status))
  {
    match client.check("POST", MessagesUrl(domain))
    case Some(e) => Err(e)
    case None =>
      match client.send(MailRequest(userAgent, token, domain, address, subject, text))
      case Failed(e) => Err(e)
      case Response(status) =>
        if status >= 300 then Err(Status("send mail unexpected status code received", status))
        else Ok(())
  }

  /** All five fields are stored. */
  predicate Configured(h: Hook, config: Bucket) {
    forall f :: f in Fields ==> Key(h.id, f) in config
  }

  /** Renders the stored template for this hook and request, and mails the
      result to the stored address. */
  function Process<T>(h: Hook, r: Request, config: Bucket, tpl: Templates<T>, client: Client,
                      userAgent: string): (res: Result<()>)
    ensures !Configured(h, config) ==> res == Err(Message("email action not initialized"))
    ensures Configured(h, config) && tpl.parse(config[Key(h.id, "template")]).Err? ==>
              res == Err(Wrapped("could not parse template",
                                 Some(tpl.parse(config[Key(h.id, "template")]).error)))
    ensures Configured(h, config) && tpl.parse(config[Key(h.id, "template")]).Ok? ==>
              var text := tpl.execute(tpl.parse(config[Key(h.id, "template")]).value, h, r);
              && (text.Err? ==> res == Err(Wrapped("could not execute template", Some(text.error))))
              && (text.Ok? ==> res == SendMail(client, userAgent, config[Key(h.id, "token")],
                                                 config[Key(h.id, "domain")], config[Key(h.id, "address")],
                                                 config[Key(h.id, "subject")], text.value))
  {
    if !Configured(h, config) then Err(Message("email action not initialized"))
    else
      match tpl.parse(config[Key(h.id, "template")])
      case Err(e) => Err(Wrapped("could not parse template", Some(e)))
      case Ok(t) =>
        match tpl.execute(t, h, r)
        case Err(e) => Err(Wrapped("could not execute template", Some(e)))
        case Ok(text) =>
          SendMail(client, userAgent, config[Key(h.id, "token")], config[Key(h.id, "domain")],
                   config[Key(h.id, "address")], config[Key(h.id, "subject")], text)
  }

  // ---------------------------------------------------------------------
  // Properties

  lemma FieldKeysDistinct(id: string)
    ensures forall i, j :: 0 <= i < j < |Fields| ==> Key(id, Fields[i]) != Key(id, Fields[j])
  {
    forall i, j | 0 <= i < j < |Fields|
      ensures Key(id, Fields[i]) != Key(id, Fields[j])
    {
      if Key(id, Fields[i]) == Key(id, Fields[j]) {
        KeyInjective(id, Fields[i], id, Fields[j]);
      }
    }
  }

  /** After a successful `Init`, `Params` gives back exactly the five
      fields that were passed in. */
  lemma ParamsAfterInit<T>(h: Hook, params: map<string, string>, config: Bucket, tpl: Templates<T>)
    requires Init(h, params, config, tpl).Ok?
    ensures Params(h, Init(h, params, config, tpl).value) == map f | f in Fields :: params[f]
  {
    var c := Init(h, params, config, tpl).value;
    InitStores(h, params, config, tpl);
    forall f | f in Fields ensures GetString(c, Key(h.id, f)) == params[f] {
    }
  }

  /** Configuring one hook leaves every other hook's configuration alone. */
  lemma InitIsolated<T>(h: Hook, params: map<string, string>, config: Bucket, tpl: Templates<T>,
                        other: Hook)
    requires Init(h, params, config, tpl).Ok? && other != h
    ensures Params(other, Init(h, params, config, tpl).value) == Params(other, config)
  {
    var c := Init(h, params, config, tpl).value;
    assert c == Written(h, params, config);
    forall f | f in Fields ensures GetString(c, Key(other.id, f)) == GetString(config, Key(other.id, f)) {
      WrittenElsewhere(h, params, config, other.id, f);
    }
  }

  /** Writing one hook's fields leaves the keys of another hook alone. */
  lemma WrittenElsewhere(h: Hook, params: map<string, string>, config: Bucket, id: string, f: string)
    requires forall g :: g in Fields ==> g in params
    requires id != h.id && FieldName(f)
    ensures GetString(Written(h, params, config), Key(id, f)) == GetString(config, Key(id, f))
  {
    var k := Key(id, f);
    forall g | g in Fields ensures k != Key(h.id, g) {
      if k == Key(h.id, g) {
        KeyInjective(id, f, h.id, g);
      }
    }
  }

  /** A configured hook is never reported as not initialized, and its
      template parses again when a request arrives. */
  lemma InitThenConfigured<T>(h: Hook, params: map<string, string>, config: Bucket, tpl: Templates<T>)
    requires Init(h, params, config, tpl).Ok?
    ensures Configured(h, Init(h, params, config, tpl).value)
    ensures tpl.parse(Init(h, params, config, tpl).value[Key(h.id, "template")]).Ok?
  {
    InitStores(h, params, config, tpl);
  }

  /** The request names its message completely: two sends that build the
      same request carry the same token, domain, address, subject and text. */
  lemma MailRequestInjective(ua: string, t1: string, d1: string, a1: string, s1: string, x1: string,
                             t2: string, d2: string, a2: string, s2: string, x2: string)
    requires MailRequest(ua, t1, d1, a1, s1, x1) == MailRequest(ua, t2, d2, a2, s2, x2)
    ensures t1 == t2 && d1 == d2 && a1 == a2 && s1 == s2 && x1 == x2
  {
    var f1 := MailRequest(ua, t1, d1, a1, s1, x1).body.fields;
    var f2 := MailRequest(ua, t2, d2, a2, s2, x2).body.fields;
    assert f1["from"] == f2["from"];
    assert d1 == ("mail@" + d1)[5..];
    assert d2 == ("mail@" + d2)[5..];
  }

  /** The domain is recovered from the endpoint the message is posted to. */
  lemma DomainFromUrl(domain: string)
    ensures var u := MessagesUrl(domain);
            |u| >= 36 && u[27..|u| - 9] == domain
  {
    var u := MessagesUrl(domain);
    assert u == "https://api.mailgun.net/v2/" + domain + "/messages";
    assert |"https://api.mailgun.net/v2/"| == 27;
    assert u[27..|u| - 9] == domain;
  }

  /** Every accepted `Process` call posted the rendered template with the
      stored settings and got a status below 300. */
  lemma ProcessOkSent<T>(h: Hook, r: Request, config: Bucket, tpl: Templates<T>, client: Client,
                         userAgent: string)
    requires Process(h, r, config, tpl, client, userAgent).Ok?
    ensures Configured(h, config)
    ensures var t := tpl.parse(config[Key(h.id, "template")]);
            && t.Ok? && tpl.execute(t.value, h, r).Ok?
            && var sent := client.send(MailRequest(userAgent, config[Key(h.id, "token")],
                                                   config[Key(h.id, "domain")],
                                                   config[Key(h.id, "address")],
                                                   config[Key(h.id, "subject")],
                                                   tpl.execute(t.value, h, r).value));
               sent.Response? && sent.status < 300
  {
  }
}

=== FILE: encoding.dfy ===
/** Bytes, lower-case hexadecimal encoding (`hex.EncodeToString`) and the
    whitespace trimming the GitHub validator applies to request bodies
    (`bytes.TrimSpace`). */
module Encoding {
  import opened Results

  type byte = b: int | 0 <= b < 256
  type Bytes = seq<byte>

  const HexDigits: string := "0123456789abcdef"

  /** The lower-case hexadecimal encoding of `bs`, two digits per byte, most
      significant nibble first. */
  function Hex(bs: Bytes): (s: string)
    ensures |s| == 2 * |bs|
    ensures forall i :: 0 <= i < |s| ==> s[i] in HexDigits
  {
    if bs == [] then []
    else [HexDigits[bs[0] / 16], HexDigits[bs[0] % 16]] + Hex(bs[1..])
  }

  /** The value of a lower-case hexadecimal digit, if `c` is one. */
  function DigitValue(c: char): (r: Option<int>)
    ensures r.Some? <==> c in HexDigits
    ensures r.Some? ==> 0 <= r.value < 16 && HexDigits[r.value] == c
  {
    if '0' <= c <= '9' then Some(c as int - '0' as int)
    else if 'a' <= c <= 'f' then Some(c as int - 'a' as int + 10)
    else None
  }

  /** Decoding of lower-case hexadecimal text; the inverse of `Hex`. */
  function Unhex(s: string): Option<Bytes>
  {
    if |s| < 2 then (if s == [] then Some([]) else None)
    else
      var hi, lo, rest := DigitValue(s[0]), DigitValue(s[1]), Unhex(s[2..]);
      if hi.None? || lo.None? || rest.None? then None
      else Some([(hi.value * 16 + lo.value) as byte] + rest.value)
  }

  lemma {:induction false} UnhexHex(bs: Bytes)
    ensures Unhex(Hex(bs)) == Some(bs)
  {
    if bs != [] {
      var b := bs[0];
      var hi, lo := b / 16, b % 16;
      var tail := Hex(bs[1..]);
      var s := [HexDigits[hi], HexDigits[lo]] + tail;
      assert Hex(bs) == s;
      assert Unhex(s) == Some([(hi * 16 + lo) as byte] + bs[1..]) by {
        assert s[2..] == tail;
        UnhexHex(bs[1..]);
        DigitOf(hi);
        DigitOf(lo);
      }
      assert [(hi * 16 + lo) as byte] + bs[1..] == bs;
    }
  }

  lemma DigitOf(n: int)
    requires 0 <= n < 16
    ensures DigitValue(HexDigits[n]) == Some(n)
  {
  }

  /** Different byte strings have different encodings, so a hexadecimal
      signature determines the MAC it encodes. */
  lemma HexInjective(a: Bytes, b: Bytes)
    ensures Hex(a) == Hex(b) ==> a == b
  {
    UnhexHex(a);
    UnhexHex(b);
  }

  /** The ASCII white space that `bytes.TrimSpace` removes: tab, line feed,
      vertical tab, form feed, carriage return and space. */
  predicate IsSpace(b: byte) {
    b == 9 || b == 10 || b == 11 || b == 12 || b == 13 || b == 32
  }

  predicate AllSpace(bs: Bytes) {
    forall i :: 0 <= i < |bs| ==> IsSpace(bs[i])
  }

  /** `bs` without its leading white space. */
  function TrimLeft(bs: Bytes): (r: Bytes)
    ensures |r| <= |bs| && r == bs[|bs| - |r|..]
    ensures AllSpace(bs[..|bs| - |r|])
    ensures r == [] || !IsSpace(r[0])
  {
    if bs != [] && IsSpace(bs[0]) then TrimLeft(bs[1..]) else bs
  }

  /** `bs` without its trailing white space. */
  function TrimRight(bs: Bytes): (r: Bytes)
    ensures |r| <= |bs| && r == bs[..|r|]
    ensures AllSpace(bs[|r|..])
    ensures r == [] || !IsSpace(r[|r| - 1])
  {
    if bs != [] && IsSpace(bs[|bs| - 1]) then TrimRight(bs[..|bs| - 1]) else bs
  }

  /** `bs` without leading and trailing white space: a contiguous slice of
      `bs` that neither starts nor ends with white space, everything cut off
      around it being white space. */
  function TrimSpace(bs: Bytes): (r: Bytes)
    ensures exists i :: 0 <= i <= |bs| - |r| && r == bs[i..i + |r|]
                        && AllSpace(bs[..i]) && AllSpace(bs[i + |r|..])
    ensures r == [] || (!IsSpace(r[0]) && !IsSpace(r[|r| - 1]))
  {
    var l := TrimLeft(bs);
    var r := TrimRight(l);
    var i := |bs| - |l|;
    assert bs[i..i + |r|] == r;
    assert bs[i + |r|..] == l[|r|..];
    r
  }

  /** Prepending white space does not change the left-trimmed bytes. */
  lemma {:induction false} TrimLeftSpacePrefix(ws: Bytes, bs: Bytes)
    requires AllSpace(ws)
    ensures TrimLeft(ws + bs) == TrimLeft(bs)
  {
    if ws != [] {
      assert (ws + bs)[1..] == ws[1..] + bs;
      TrimLeftSpacePrefix(ws[1..], bs);
    } else {
      assert ws + bs == bs;
    }
  }

  /** Appending white space does not change the right-trimmed bytes. */
  lemma {:induction false} TrimRightSpaceSuffix(bs: Bytes, ws: Bytes)
    requires AllSpace(ws)
    ensures TrimRight(bs + ws) == TrimRight(bs)
  {
    if ws != [] {
      var w := ws[..|ws| - 1];
      assert (bs + ws)[..|bs + ws| - 1] == bs + w;
      TrimRightSpaceSuffix(bs, w);
    } else {
      assert bs + ws == bs;
    }
  }

  /** Trimming a byte string that starts with a non-space byte only trims its
      end, and the end of such a string survives left trimming. */
  lemma {:induction false} TrimLeftSpaceSuffix(bs: Bytes, ws: Bytes)
    requires AllSpace(ws)
    ensures TrimLeft(bs + ws) == TrimLeft(bs) + ws || (TrimLeft(bs) == [] && TrimLeft(bs + ws) == [])
  {
    if bs == [] {
      assert bs + ws == ws;
      TrimLeftSpacePrefix(ws, []);
      assert ws + [] == ws;
    } else if IsSpace(bs[0]) {
      assert (bs + ws)[1..] == bs[1..] + ws;
      TrimLeftSpaceSuffix(bs[1..], ws);
    }
  }

  /** White space around a body never changes what the validator signs. */
  lemma SurroundingSpaceIgnored(pre: Bytes, bs: Bytes, post: Bytes)
    requires AllSpace(pre) && AllSpace(post)
    ensures TrimSpace(pre + bs + post) == TrimSpace(bs)
  {
    assert pre + bs + post == pre + (bs + post);
    TrimLeftSpacePrefix(pre, bs + post);
    TrimLeftSpaceSuffix(bs, post);
    if TrimLeft(bs) == [] {
      assert TrimRight([]) == [];
    } else {
      TrimRightSpaceSuffix(TrimLeft(bs), post);
    }
  }

  /** Trimming twice is trimming once. */
  lemma TrimSpaceIdempotent(bs: Bytes)
    ensures TrimSpace(TrimSpace(bs)) == TrimSpace(bs)
  {
    var r := TrimSpace(bs);
    if r != [] {
      assert TrimLeft(r) == r;
      assert TrimRight(r) == r;
    }
  }
}

=== FILE: execute_action.dfy ===
/** The execute action: runs a configured shell command for every request. */
module ExecuteAction {
  import opened Results
  import opened Store
  import opened Components
  import ForwardAction
  import Http

  /** Running `sh -c command` to completion: the error it ends with, if
      any. The combined output is only logged. Supplied by the caller. */
  type Runner = string -> Option<Error>

  /** The stored command, "" when absent. */
  function Params(h: Hook, config: Bucket): (m: map<string, string>)
    ensures m.Keys == {"command"}
  {
    map["command" := GetString(config, Key(h.id, "command"))]
  }

  /** Requires a `command` parameter; then stores it verbatim. */
  function Init(h: Hook, params: map<string, string>, config: Bucket): (r: Result<Bucket>)
    ensures r.Err? <==> "command" !in params
    ensures r.Err? ==> r.error == Message("command is required")
    ensures r.Ok? ==> r.value.Keys == config.Keys + {Key(h.id, "command")}
    ensures r.Ok? ==> forall k :: k in config && k != Key(h.id, "command") ==> r.value[k] == config[k]
  {
    if "command" !in params then Err(Message("command is required"))
    else Ok(config[Key(h.id, "command") := params["command"]])
  }

  /** The error an unconfigured execute action reports, as the source words
      it: the forward action's message, copied. */
  const NotInitializedAsWritten: Error := Message("forward request action not initialized")

  /** The error an unconfigured execute action evidently should report. */
  const NotInitialized: Error := Message("execute action not initialized")

  /** `Process` as written: an unconfigured hook reports the forward
      action's error. */
  function ProcessAsWritten(h: Hook, r: Request, config: Bucket, run: Runner): (res: Result<()>)
    ensures Key(h.id, "command") !in config ==> res == Err(NotInitializedAsWritten)
    ensures Key(h.id, "command") in config && run(config[Key(h.id, "command")]).Some? ==>
              res == Err(run(config[Key(h.id, "command")]).value)
    ensures res.Ok? <==> Key(h.id, "command") in config && run(config[Key(h.id, "command")]).None?
  {
    var key := Key(h.id, "command");
    if key !in config then Err(NotInitializedAsWritten)
    else
      match run(config[key])
      case Some(e) => Err(e)
      case None => Ok(())
  }

  /** Runs the stored command; its error, if any, is passed on unchanged.
      An unconfigured hook reports that the execute action is not
      initialized. */
  function Process(h: Hook, r: Request, config: Bucket, run: Runner): (res: Result<()>)
    ensures Key(h.id, "command") !in config ==> res == Err(NotInitialized)
    ensures Key(h.id, "command") in config && run(config[Key(h.id, "command")]).Some? ==>
              res == Err(run(config[Key(h.id, "command")]).value)
    ensures res.Ok? <==> Key(h.id, "command") in config && run(config[Key(h.id, "command")]).None?
  {
    var key := Key(h.id, "command");
    if key !in config then Err(NotInitialized)
    else
      match run(config[key])
      case Some(e) => Err(e)
      case None => Ok(())
  }

  // ---------------------------------------------------------------------
  // Properties

  /** As written, a hook with neither action configured gets the very same
      error from the execute action as from the forward action, so the
      error does not say which component failed. Each component reads its
      own partition. */
  lemma AsWrittenMisattributes(h: Hook, r: Request, execConfig: Bucket, fwdConfig: Bucket,
                               run: Runner, client: Http.Client, agentLast: bool)
    requires Key(h.id, "command") !in execConfig && Key(h.id, "url") !in fwdConfig
    ensures ProcessAsWritten(h, r, execConfig, run)
            == ForwardAction.Process(h, r, fwdConfig, client, agentLast)
    ensures ProcessAsWritten(h, r, execConfig, run).Err?
  {
  }

  /** The corrected action's not-initialized error never coincides with
      anything the forward action returns, whatever its partition holds. */
  lemma NotInitializedAttributed(h: Hook, r: Request, execConfig: Bucket, fwdConfig: Bucket,
                                 run: Runner, client: Http.Client, agentLast: bool)
    requires Key(h.id, "command") !in execConfig
    ensures Process(h, r, execConfig, run).Err?
    ensures Process(h, r, execConfig, run) != ForwardAction.Process(h, r, fwdConfig, client, agentLast)
  {
    if Key(h.id, "url") !in fwdConfig {
      assert NotInitialized.text[0] != NotInitializedAsWritten.text[0];
    }
  }

  /** Apart from that message, the two versions agree. */
  lemma CorrectionOnlyRewords(h: Hook, r: Request, config: Bucket, run: Runner)
    requires Key(h.id, "command") in config
    ensures Process(h, r, config, run) == ProcessAsWritten(h, r, config, run)
  {
  }

  /** After a successful `Init`, `Params` gives back the command. */
  lemma ParamsAfterInit(h: Hook, params: map<string, string>, config: Bucket)
    requires Init(h, params, config).Ok?
    ensures Params(h, Init(h, params, config).value) == map["command" := params["command"]]
  {
  }

  /** Configuring one hook leaves every other hook's command alone. */
  lemma InitIsolated(h: Hook, params: map<string, string>, config: Bucket, other: Hook)
    requires Init(h, params, config).Ok? && other != h
    ensures Params(other, Init(h, params, config).value) == Params(other, config)
  {
    if Key(other.id, "command") == Key(h.id, "command") {
      KeyInjective(other.id, "command", h.id, "command");
    }
  }

  /** After `Init`, every request runs exactly the configured command and
      succeeds exactly when the command does. */
  lemma InitThenRuns(h: Hook, params: map<string, string>, config: Bucket, r: Request, run: Runner)
    requires Init(h, params, config).Ok?
    ensures Process(h, r, Init(h, params, config).value, run).Ok? <==> run(params["command"]).None?
    ensures run(params["command"]).Some? ==>
              Process(h, r, Init(h, params, config).value, run) == Err(run(params["command"]).value)
  {
  }
}

=== FILE: forward_action.dfy ===
/** The forward action: passes the incoming request on to a configured URL
    with the same method and body and nearly the same headers. */
module ForwardAction {
  import opened Results
  import opened Store
  import opened Components
  import opened Http

  /** `url.Parse`: the parser's error for an unusable URL. Supplied by the
      caller. */
  type UrlParser = string -> Option<Error>

  const ForwardedAgent: string := "X-Forwarded-User-Agent"
  const RehookAgent: string := "rehook/0.0.1 (https://github.com/gophergala/rehook)"

  /** Requires a `url` parameter that parses; then stores it verbatim. */
  function Init(h: Hook, params: map<string, string>, config: Bucket, parseUrl: UrlParser): (r: Result<Bucket>)
    ensures "url" !in params ==> r == Err(Message("url is required"))
    ensures "url" in params && parseUrl(params["url"]).Some? ==>
              r == Err(Wrapped("url is not valid", parseUrl(params["url"])))
    ensures r.Ok? <==> "url" in params && parseUrl(params["url"]).None?
    ensures r.Ok? ==> r.value.Keys == config.Keys + {Key(h.id, "url")}
    ensures r.Ok? ==> r.value[Key(h.id, "url")] == params["url"]
    ensures r.Ok? ==> forall k :: k in config && k != Key(h.id, "url") ==> r.value[k] == config[k]
  {
    if "url" !in params then Err(Message("url is required"))
    else
      var uri := params["url"];
      match parseUrl(uri)
      case Some(e) => Err(Wrapped("url is not valid", Some(e)))
      case None => Ok(config[Key(h.id, "url") := uri])
  }

  /** The value `X-Forwarded-User-Agent` ends up with. The headers are
      copied in map order, so when a request carries both `User-Agent` and
      `X-Forwarded-User-Agent` the one copied last wins; `agentLast` says
      whether that is the renamed `User-Agent`. */
  function ForwardedAgentValue(headers: map<string, string>, agentLast: bool): Option<string> {
    if "User-Agent" in headers && (agentLast || ForwardedAgent !in headers) then
      Some(headers["User-Agent"])
    else if ForwardedAgent in headers then Some(headers[ForwardedAgent])
    else None
  }

  /** The headers of the forwarded request: `Connection` dropped,
      `User-Agent` moved to `X-Forwarded-User-Agent`, everything else copied,
      and rehook's own `User-Agent` set. */
  function ForwardHeaders(headers: map<string, string>, agentLast: bool): (fwd: map<string, string>)
    ensures "Connection" !in fwd
    ensures "User-Agent" in fwd && fwd["User-Agent"] == RehookAgent
    ensures forall k :: k != "Connection" && k != "User-Agent" && k != ForwardedAgent ==>
              (k in fwd <==> k in headers) && (k in fwd ==> fwd[k] == headers[k])
    ensures ForwardedAgent in fwd <==> "User-Agent" in headers || ForwardedAgent in headers
    ensures "User-Agent" in headers && ForwardedAgent !in headers ==>
              fwd[ForwardedAgent] == headers["User-Agent"]
    ensures ForwardedAgent in fwd ==>
              ("User-Agent" in headers && fwd[ForwardedAgent] == headers["User-Agent"])
              || (ForwardedAgent in headers && fwd[ForwardedAgent] == headers[ForwardedAgent])
  {
    var copied := map k | k in headers && k != "Connection" && k != "User-Agent" && k != ForwardedAgent
                    :: headers[k];
    var agent := ForwardedAgentValue(headers, agentLast);
    var renamed := if agent.Some? then copied[ForwardedAgent := agent.value] else copied;
    renamed["User-Agent" := RehookAgent]
  }

  /** The incoming headers recovered from forwarded ones: the forwarded
      agent goes back to `User-Agent`. */
  function RestoreHeaders(fwd: map<string, string>): map<string, string> {
    var others := map k | k in fwd && k != "User-Agent" && k != ForwardedAgent :: fwd[k];
    if ForwardedAgent in fwd then others["User-Agent" := fwd[ForwardedAgent]] else others
  }

  /** The request sent on: same method and body, forwarded headers, no
      credentials. */
  function Forwarded(r: Request, uri: string, agentLast: bool): (o: Outgoing)
    ensures o.verb == r.verb && o.url == uri && o.body == Raw(r.body) && o.auth.None?
    ensures o.headers == ForwardHeaders(r.headers, agentLast)
  {
    Outgoing(r.verb, uri, ForwardHeaders(r.headers, agentLast), None, Raw(r.body))
  }

  /** Sends the request on to the stored URL: a request that cannot be
      built, a transport error and a status of 300 or above are errors. */
  function Process(h: Hook, r: Request, config: Bucket, client: Client, agentLast: bool): (res: Result<()>)
    ensures Key(h.id, "url") !in config ==>
              res == Err(Message("forward request action not initialized"))
    ensures Key(h.id, "url") in config && client.check(r.verb, config[Key(h.id, "url")]).Some? ==>
              res == Err(Wrapped("could not create new request",
                                 client.check(r.verb, config[Key(h.id, "url")])))
    ensures res.Ok? <==>
              && Key(h.id, "url") in config
              && client.check(r.verb, config[Key(h.id, "url")]).None?
              && client.send(Forwarded(r, config[Key(h.id, "url")], agentLast)).Response?
              && Succeeded(client.send(Forwarded(r, config[Key(h.id, "url")], agentLast)).status)
    ensures Key(h.id, "url") in config && client.check(r.verb, config[Key(h.id, "url")]).None? ==>
              match client.send(Forwarded(r, config[Key(h.id, "url")], agentLast))
              case Failed(e) => res == Err(Wrapped("request forward error", Some(e)))
              case Response(status) =>
                !Succeeded(status) ==>
                  res == Err(Status("request forward unexpected status code received", status))
  {
    var key := Key(h.id, "url");
    if key !in config then Err(Message("forward request action not initialized"))
    else
      var uri := config[key];
      match client.check(r.verb, uri)
      case Some(e) => Err(Wrapped("could not create new request", Some(e)))
      case None =>
        match client.send(Forwarded(r, uri, agentLast))
        case Failed(e) => Err(Wrapped("request forward error", Some(e)))
        case Response(status) =>
          if status >= 300 then Err(Status("request forward unexpected status code received", status))
          else Ok(())
  }

  // ---------------------------------------------------------------------
  // Properties

  /** Forwarding loses nothing but `Connection`: when the request has no
      `X-Forwarded-User-Agent` of its own, the incoming headers can be
      recovered from the forwarded ones, whatever the copy order. */
  lemma RestoreForwarded(headers: map<string, string>, agentLast: bool)
    requires "Connection" !in headers && ForwardedAgent !in headers
    ensures RestoreHeaders(ForwardHeaders(headers, agentLast)) == headers
  {
    var fwd := ForwardHeaders(headers, agentLast);
    var back := RestoreHeaders(fwd);
    assert back.Keys == headers.Keys;
  }

  /** The copy order matters only when the request carries both agents. */
  lemma OrderMattersOnlyForBothAgents(headers: map<string, string>)
    requires !("User-Agent" in headers && ForwardedAgent in headers)
    ensures ForwardHeaders(headers, true) == ForwardHeaders(headers, false)
  {
    assert ForwardedAgentValue(headers, true) == ForwardedAgentValue(headers, false);
  }

  /** After `Init` with a URL, every request goes to that URL with its own
      method and body, and succeeds exactly when the endpoint answers below
      300. */
  lemma InitThenForwards(h: Hook, params: map<string, string>, config: Bucket, parseUrl: UrlParser,
                         r: Request, client: Client, agentLast: bool)
    requires Init(h, params, config, parseUrl).Ok?
    ensures var c := Init(h, params, config, parseUrl).value;
            var sent := Forwarded(r, params["url"], agentLast);
            Process(h, r, c, client, agentLast).Ok? <==>
              && client.check(r.verb, params["url"]).None?
              && client.send(sent).Response? && client.send(sent).status < 300
  {
  }

  /** Configuring one hook leaves every other hook's URL alone. */
  lemma InitIsolated(h: Hook, params: map<string, string>, config: Bucket, parseUrl: UrlParser,
                     other: Hook)
    requires Init(h, params, config, parseUrl).Ok? && other != h
    ensures GetString(Init(h, params, config, parseUrl).value, Key(other.id, "url"))
            == GetString(config, Key(other.id, "url"))
  {
    if Key(other.id, "url") == Key(h.id, "url") {
      KeyInjective(other.id, "url", h.id, "url");
    }
  }
}

=== FILE: github_validator.dfy ===
/** The GitHub validator: checks the `X-Hub-Signature` HMAC-SHA1 of the body
    and refuses a delivery id it has seen before. */
module GithubValidator {
  import opened Results
  import opened Store
  import opened Encoding
  import opened Components

  /** The HMAC-SHA1 of a message under a secret, supplied by the caller. */
  type Mac = (string, Bytes) -> Bytes

  /** The validator's partition: flat configuration entries and the nested
      `deliveries` set of delivery ids already accepted. */
  datatype State = State(config: Bucket, deliveries: set<string>)

  /** The stored secret, "" when absent. */
  function Params(h: Hook, st: State): (m: map<string, string>)
    ensures m.Keys == {"secret"}
  {
    map["secret" := GetString(st.config, Key(h.id, "secret"))]
  }

  /** Stores the `secret` parameter. */
  function Init(h: Hook, params: map<string, string>, st: State): (r: Result<State>)
    ensures r.Err? <==> "secret" !in params
    ensures r.Err? ==> r.error == Message("secret is required")
    ensures r.Ok? ==> r.value.deliveries == st.deliveries
    ensures r.Ok? ==> r.value.config.Keys == st.config.Keys + {Key(h.id, "secret")}
    ensures r.Ok? ==> forall k :: k in st.config && k != Key(h.id, "secret") ==>
                        r.value.config[k] == st.config[k]
  {
    if "secret" !in params then Err(Message("secret is required"))
    else Ok(st.(config := st.config[Key(h.id, "secret") := params["secret"]]))
  }

  /** The only signature accepted for `body`: "sha1=" and the lower-case hex
      HMAC of the body with surrounding white space trimmed. */
  function ExpectedSignature(hmac: Mac, secret: string, body: Bytes): string {
    "sha1=" + Hex(hmac(secret, TrimSpace(body)))
  }

  /** Checks, in order: the validator is configured, the signature is the
      expected one, the delivery id is new; then records the id. */
  function Process(h: Hook, r: Request, st: State, hmac: Mac): (res: Result<State>)
    ensures Key(h.id, "secret") !in st.config ==>
              res == Err(Message("github validator not initialized"))
    ensures Key(h.id, "secret") in st.config
            && Header(r, "X-Hub-Signature")
               != ExpectedSignature(hmac, st.config[Key(h.id, "secret")], r.body) ==>
              res == Err(Message("invalid signature"))
    ensures Key(h.id, "secret") in st.config
            && Header(r, "X-Hub-Signature")
               == ExpectedSignature(hmac, st.config[Key(h.id, "secret")], r.body)
            && Header(r, "X-Github-Delivery") in st.deliveries ==>
              res == Err(Message("duplicate delivery"))
    ensures Key(h.id, "secret") in st.config
            && Header(r, "X-Hub-Signature")
               == ExpectedSignature(hmac, st.config[Key(h.id, "secret")], r.body)
            && Header(r, "X-Github-Delivery") == "" && "" !in st.deliveries ==>
              res == Err(Message("key required"))
    ensures res.Ok? <==>
              && Key(h.id, "secret") in st.config
              && Header(r, "X-Hub-Signature")
                 == ExpectedSignature(hmac, st.config[Key(h.id, "secret")], r.body)
              && Header(r, "X-Github-Delivery") !in st.deliveries
              && Header(r, "X-Github-Delivery") != ""
    ensures res.Ok? ==> res.value == st.(deliveries := st.deliveries + {Header(r, "X-Github-Delivery")})
  {
    var key := Key(h.id, "secret");
    if key !in st.config then Err(Message("github validator not initialized"))
    else if Header(r, "X-Hub-Signature") != ExpectedSignature(hmac, st.config[key], r.body) then
      Err(Message("invalid signature"))
    else
      var id := Header(r, "X-Github-Delivery");
      if id in st.deliveries then Err(Message("duplicate delivery"))
      else
        var deliveries :- Insert(st.deliveries, id);
        Ok(st.(deliveries := deliveries))
  }

  /** A signed request whose delivery id was already accepted is refused as a
      duplicate. */
  lemma DuplicateRejected(h: Hook, r: Request, st: State, hmac: Mac)
    requires Key(h.id, "secret") in st.config
    requires Header(r, "X-Hub-Signature")
             == ExpectedSignature(hmac, st.config[Key(h.id, "secret")], r.body)
    requires Header(r, "X-Github-Delivery") in st.deliveries
    ensures Process(h, r, st, hmac) == Err(Message("duplicate delivery"))
  {
  }

  /** Replaying an accepted request fails the second time. */
  lemma ReplayRejected(h: Hook, r: Request, st: State, hmac: Mac)
    requires Process(h, r, st, hmac).Ok?
    ensures Process(h, r, Process(h, r, st, hmac).value, hmac) == Err(Message("duplicate delivery"))
  {
  }

  /** The signature decides acceptance: any header other than the expected
      one fails, and the expected one names exactly one MAC. */
  lemma SignatureDeterminesMac(h: Hook, r: Request, st: State, hmac: Mac, mac: Bytes)
    requires Key(h.id, "secret") in st.config
    requires Header(r, "X-Hub-Signature") == "sha1=" + Hex(mac)
    ensures Process(h, r, st, hmac) != Err(Message("invalid signature"))
            <==> mac == hmac(st.config[Key(h.id, "secret")], TrimSpace(r.body))
  {
    var expected := hmac(st.config[Key(h.id, "secret")], TrimSpace(r.body));
    HexInjective(mac, expected);
    if "sha1=" + Hex(mac) == "sha1=" + Hex(expected) {
      assert Hex(mac) == ("sha1=" + Hex(mac))[5..];
    }
  }

  /** White space around the body does not change the outcome. */
  lemma BodySpaceIgnored(h: Hook, r: Request, st: State, hmac: Mac, pre: Bytes, post: Bytes)
    requires AllSpace(pre) && AllSpace(post)
    ensures Process(h, r.(body := pre + r.body + post), st, hmac) == Process(h, r, st, hmac)
  {
    var r' := r.(body := pre + r.body + post);
    SurroundingSpaceIgnored(pre, r.body, post);
    assert Header(r', "X-Hub-Signature") == Header(r, "X-Hub-Signature");
    assert Header(r', "X-Github-Delivery") == Header(r, "X-Github-Delivery");
    assert forall secret :: ExpectedSignature(hmac, secret, r'.body)
                            == ExpectedSignature(hmac, secret, r.body);
  }

  /** After a successful `Init`, `Params` gives back the secret. */
  lemma ParamsAfterInit(h: Hook, params: map<string, string>, st: State)
    requires Init(h, params, st).Ok?
    ensures Params(h, Init(h, params, st).value) == map["secret" := params["secret"]]
  {
  }

  /** Configuring one hook leaves every other hook's secret alone. */
  lemma InitIsolated(h: Hook, params: map<string, string>, st: State, other: Hook)
    requires Init(h, params, st).Ok? && other != h
    ensures Params(other, Init(h, params, st).value) == Params(other, st)
  {
    if Key(other.id, "secret") == Key(h.id, "secret") {
      KeyInjective(other.id, "secret", h.id, "secret");
    }
  }

  /** After `Init`, a correctly signed request with a new delivery id passes. */
  lemma InitThenValid(h: Hook, params: map<string, string>, st: State, r: Request, hmac: Mac)
    requires Init(h, params, st).Ok?
    requires Header(r, "X-Hub-Signature") == ExpectedSignature(hmac, params["secret"], r.body)
    requires Header(r, "X-Github-Delivery") !in st.deliveries
    requires Header(r, "X-Github-Delivery") != ""
    ensures Process(h, r, Init(h, params, st).value, hmac).Ok?
  {
  }
}

=== FILE: hook_store.dfy ===
/** The hook store: the set of hook identities and the delivery counters,
    kept in the `hooks` and `stats` partitions. */
module HookStore {
  import opened Results
  import opened Store
  import opened Text
  import KeyOrder
  import Strconv

  /** The two partitions the hook store owns. A hook exists exactly when its
      id is a key of `hooks` (the stored value is always empty); `stats` maps
      counter keys to the integers stored under them. */
  datatype Db = Db(hooks: set<string>, stats: map<string, int>)

  function Ids(hooks: seq<Hook>): (ids: seq<string>)
    ensures |ids| == |hooks|
    ensures forall i :: 0 <= i < |hooks| ==> ids[i] == hooks[i].id
  {
    if hooks == [] then [] else [hooks[0].id] + Ids(hooks[1..])
  }

  /** Every stored hook exactly once, in the order of their keys. */
  method List(db: Db) returns (hooks: seq<Hook>)
    ensures forall id :: Hook(id) in hooks <==> Find(db, id).Ok?
    ensures KeyOrder.Ascending(Ids(hooks))
    ensures forall i, j :: 0 <= i < j < |hooks| ==> hooks[i] != hooks[j]
  {
    var keys := KeyOrder.Sorted(db.hooks);
    hooks := seq(|keys|, i requires 0 <= i < |keys| => Hook(keys[i]));
    assert Ids(hooks) == keys;
    forall id
      ensures Hook(id) in hooks <==> id in db.hooks
    {
      if id in db.hooks {
        var i :| 0 <= i < |keys| && keys[i] == id;
        assert hooks[i] == Hook(id);
      }
    }
  }

  /** The hook with the given id, if it exists. */
  function Find(db: Db, id: string): (r: Result<Hook>)
    ensures r.Ok? <==> id in db.hooks
    ensures r.Ok? ==> r.value == Hook(id)
    ensures r.Err? ==> r.error == Message("hook does not exist")
  {
    if id in db.hooks then Ok(Hook(id)) else Err(Message("hook does not exist"))
  }

  /** Adds hook `h`. The id must not be blank, must match `^[a-z0-9-]+$` and
      must not be taken; the checks run in that order. */
  function Create(db: Db, h: Hook): (r: Result<Db>)
    ensures Blank(h.id) ==> r == Err(Message("hook id is required"))
    ensures !Blank(h.id) && !ValidId(h.id) ==>
              r == Err(Message("hook id contains invalid characters"))
    ensures ValidId(h.id) && h.id in db.hooks ==>
              r == Err(Message("a hook with that id already exists"))
    ensures r.Ok? <==> ValidId(h.id) && h.id !in db.hooks
    ensures r.Ok? ==> r.value.hooks == db.hooks + {h.id} && r.value.stats == db.stats
  {
    ValidIsNotBlank(h.id);
    if Blank(h.id) then Err(Message("hook id is required"))
    else if !MatchesIdPattern(h.id) then Err(Message("hook id contains invalid characters"))
    else if h.id in db.hooks then Err(Message("a hook with that id already exists"))
    else Ok(db.(hooks := db.hooks + {h.id}))
  }

  /** Removes the hook with the given id. Deleting an id that is not there
      succeeds and changes nothing. */
  function Delete(db: Db, id: string): (r: Result<Db>)
    ensures r.Ok?
    ensures r.value.hooks == db.hooks - {id}
    ensures r.value.stats == db.stats
  {
    Ok(db.(hooks := db.hooks - {id}))
  }

  /** After a successful create, the hook can be found. */
  lemma CreateThenFind(db: Db, h: Hook)
    requires Create(db, h).Ok?
    ensures Find(Create(db, h).value, h.id) == Ok(h)
  {
  }

  /** Creating one hook does not change whether any other can be found. */
  lemma CreateKeepsOthers(db: Db, h: Hook, id: string)
    requires Create(db, h).Ok? && id != h.id
    ensures Find(Create(db, h).value, id) == Find(db, id)
  {
  }

  /** Creating the same hook twice fails the second time. */
  lemma CreateTwiceFails(db: Db, h: Hook)
    requires Create(db, h).Ok?
    ensures Create(Create(db, h).value, h) == Err(Message("a hook with that id already exists"))
  {
  }

  /** After a delete the hook is gone, and every other hook is untouched. */
  lemma DeleteThenFind(db: Db, id: string, other: string)
    requires other != id
    ensures Find(Delete(db, id).value, id).Err?
    ensures Find(Delete(db, id).value, other) == Find(db, other)
  {
  }

  // ---------------------------------------------------------------------
  // Delivery counters

  type Month = m: int | 1 <= m <= 12 witness 1
  type Day = d: int | 1 <= d <= 31 witness 1
  type Hour = h: int | 0 <= h < 24

  /** The local date and hour at which a delivery is counted (the model's
      stand-in for `time.Now()`). */
  datatype HourStamp = HourStamp(year: int, month: Month, day: Day, hour: Hour)

  /** `s` left-padded with zeros to at least `width` characters. */
  function Pad(s: string, width: nat): (r: string)
    ensures |r| == if |s| >= width then |s| else width
    ensures r[|r| - |s|..] == s
    ensures forall i :: 0 <= i < |r| - |s| ==> r[i] == '0'
    decreases width - |s|
  {
    if |s| >= width then s
    else
      var r := Pad("0" + s, width);
      var tail := r[|r| - |s| - 1..];
      assert tail == "0" + s;
      assert tail[1..] == r[|r| - |s|..] && tail[1..] == s;
      assert r[|r| - |s| - 1] == tail[0] == '0';
      r
  }

  /** Zero padding keeps a digit string's value. */
  lemma {:induction false} PadValue(s: string, width: nat)
    requires Strconv.AllDigits(s)
    ensures Strconv.AllDigits(Pad(s, width))
    ensures Strconv.DigitsValue(Pad(s, width)) == Strconv.DigitsValue(s)
    decreases width - |s|
  {
    if |s| < width {
      Strconv.LeadingZeroValue(s);
      PadValue("0" + s, width);
    }
  }

  /** A date field as `Format` writes it: the decimal digits of `n`,
      zero-padded to `width`. */
  function Field(n: nat, width: nat): (f: string)
    requires width >= 1
    ensures Strconv.AllDigits(f) && Strconv.DigitsValue(f) == n
    ensures |f| >= width
    ensures n < Strconv.Pow10(width) ==> |f| == width
  {
    PadValue(Strconv.Decimal(n), width);
    Strconv.DecimalFits(n, width);
    Pad(Strconv.Decimal(n), width)
  }

  /** The year as `Format` writes it: four digits at least, after a minus
      sign when negative. */
  function YearField(year: int): string {
    if year < 0 then "-" + Field(-year, 4) else Field(year, 4)
  }

  /** `t.Format("2006-01-02-15")`: the year, then month, day and hour as two
      digits each, joined by dashes. */
  function HourLabel(t: HourStamp): string {
    YearField(t.year) + "-" + Field(t.month, 2) + "-" + Field(t.day, 2) + "-" + Field(t.hour, 2)
  }

  /** `f` is a field of decimal digits that reads as `n`. */
  predicate ReadsAs(f: string, n: int) {
    Strconv.AllDigits(f) && Strconv.DigitsValue(f) == n
  }

  /** For a year of at most four digits the label is 13 characters: the
      year, month, day and hour fields, separated by dashes at positions 4,
      7 and 10, each reading back as the stamp's value. */
  lemma HourLabelFormat(t: HourStamp)
    requires 0 <= t.year <= 9999
    ensures var r := HourLabel(t);
            && |r| == 13 && r[4] == '-' && r[7] == '-' && r[10] == '-'
            && ReadsAs(r[..4], t.year) && ReadsAs(r[5..7], t.month)
            && ReadsAs(r[8..10], t.day) && ReadsAs(r[11..], t.hour)
  {
    StampFieldWidths(t);
    var year, month, day, hour := Field(t.year, 4), Field(t.month, 2), Field(t.day, 2), Field(t.hour, 2);
    assert HourLabel(t) == year + "-" + month + "-" + day + "-" + hour;
    JoinFields(year, month, day, hour, t.year, t.month, t.day, t.hour);
  }

  /** A year of at most four digits fills four characters; month, day and
      hour fill two. */
  lemma StampFieldWidths(t: HourStamp)
    requires 0 <= t.year <= 9999
    ensures |Field(t.year, 4)| == 4
    ensures |Field(t.month, 2)| == 2 && |Field(t.day, 2)| == 2 && |Field(t.hour, 2)| == 2
  {
    assert Strconv.Pow10(4) == 10000 && Strconv.Pow10(2) == 100;
  }

  /** Where the fields sit in a label joined from a four-character year and
      three two-character fields. */
  lemma JoinFields(year: string, month: string, day: string, hour: string, y: int, m: int, d: int, h: int)
    requires |year| == 4 && |month| == 2 && |day| == 2 && |hour| == 2
    requires ReadsAs(year, y) && ReadsAs(month, m) && ReadsAs(day, d) && ReadsAs(hour, h)
    ensures var r := year + "-" + month + "-" + day + "-" + hour;
            && |r| == 13 && r[4] == '-' && r[7] == '-' && r[10] == '-'
            && ReadsAs(r[..4], y) && ReadsAs(r[5..7], m) && ReadsAs(r[8..10], d) && ReadsAs(r[11..], h)
  {
    var r := year + "-" + month + "-" + day + "-" + hour;
    assert r[..4] == year && r[5..7] == month && r[8..10] == day && r[11..] == hour;
  }

  /** The counter of deliveries to hook `id` during the hour `t`. */
  function HourKey(id: string, t: HourStamp): string {
    Key(id, HourLabel(t))
  }

  /** The counter of all deliveries to hook `id`. */
  function TotalKey(id: string): string {
    Key(id, "total")
  }

  /** The value of a counter; a counter never written reads as zero. */
  function Count(stats: map<string, int>, key: string): int {
    if key in stats then stats[key] else 0
  }

  /** Raises one counter by one, creating it at one. */
  function Increment(stats: map<string, int>, key: string): (r: map<string, int>)
    ensures Count(r, key) == Count(stats, key) + 1
    ensures key !in stats ==> r[key] == 1
    ensures r.Keys == stats.Keys + {key}
    ensures forall k :: k in stats && k != key ==> r[k] == stats[k]
  {
    stats[key := Count(stats, key) + 1]
  }

  /** Raises two different counters by one each. */
  function IncrementBoth(stats: map<string, int>, k1: string, k2: string): (r: map<string, int>)
    requires k1 != k2
    ensures Count(r, k1) == Count(stats, k1) + 1
    ensures Count(r, k2) == Count(stats, k2) + 1
    ensures r.Keys == stats.Keys + {k1, k2}
    ensures forall k :: k in stats && k != k1 && k != k2 ==> r[k] == stats[k]
  {
    Increment(Increment(stats, k1), k2)
  }

  /** An hour label ends in a digit, so it is never "total". */
  lemma HourKeyIsNotTotal(id: string, t: HourStamp)
    ensures HourKey(id, t) != TotalKey(id)
  {
    var text := HourLabel(t);
    var hour := Field(t.hour, 2);
    assert text[|text| - |hour|..] == hour;
    var k := HourKey(id, t);
    assert k[|k| - 1] == text[|text| - 1];
    assert TotalKey(id)[|TotalKey(id)| - 1] == 'l';
  }

  /** Counts one delivery to hook `id` in hour `t`: the hour's counter and
      the hook's total each go up by exactly one, and nothing else changes.
      The hook need not exist. */
  function Inc(db: Db, id: string, t: HourStamp): (r: Db)
    ensures r.hooks == db.hooks
    ensures Count(r.stats, HourKey(id, t)) == Count(db.stats, HourKey(id, t)) + 1
    ensures Count(r.stats, TotalKey(id)) == Count(db.stats, TotalKey(id)) + 1
    ensures r.stats.Keys == db.stats.Keys + {HourKey(id, t), TotalKey(id)}
    ensures forall k :: k in db.stats && k != HourKey(id, t) && k != TotalKey(id) ==>
              r.stats[k] == db.stats[k]
  {
    HourKeyIsNotTotal(id, t);
    db.(stats := IncrementBoth(db.stats, HourKey(id, t), TotalKey(id)))
  }

  /** Raising two counters gives the same result in either order. */
  lemma IncrementCommutes(stats: map<string, int>, k1: string, k2: string)
    ensures Increment(Increment(stats, k1), k2) == Increment(Increment(stats, k2), k1)
  {
    if k1 != k2 {
      var a := Increment(Increment(stats, k1), k2);
      var b := Increment(Increment(stats, k2), k1);
      assert forall k :: k in a ==> a[k] == b[k];
    }
  }

  /** Counting is order-independent: two deliveries leave the same counters
      whichever is counted first. */
  lemma IncCommutes(db: Db, id: string, t1: HourStamp, t2: HourStamp)
    ensures Inc(Inc(db, id, t1), id, t2) == Inc(Inc(db, id, t2), id, t1)
  {
    var h1, h2, total := HourKey(id, t1), HourKey(id, t2), TotalKey(id);
    var s := db.stats;
    assert Inc(Inc(db, id, t1), id, t2).stats
        == Increment(Increment(Increment(Increment(s, h1), total), h2), total);
    assert Inc(Inc(db, id, t2), id, t1).stats
        == Increment(Increment(Increment(Increment(s, h2), total), h1), total);
    IncrementCommutes(Increment(s, h1), total, h2);
    IncrementCommutes(Increment(s, h2), total, h1);
    IncrementCommutes(s, h1, h2);
  }
}

=== FILE: http.dfy ===
/** Outgoing HTTP requests and their responses, as the actions hand them to
    the HTTP client. The client itself is a parameter of the actions. */
module Http {
  import opened Results
  import opened Encoding

  /** `req.SetBasicAuth(user, password)` */
  datatype Credentials = Credentials(user: string, password: string)

  /** The body of an outgoing request: bytes passed through unchanged, or
      form fields that the client URL-encodes. */
  datatype Body = Raw(bytes: Bytes) | Form(fields: map<string, string>)

  datatype Outgoing = Outgoing(
    verb: string,
    url: string,
    headers: map<string, string>,
    auth: Option<Credentials>,
    body: Body)

  /** What the client reports: a status code, or a transport error (no
      connection, timeout, ...). */
  datatype Response = Response(status: int) | Failed(error: Error)

  /** The HTTP client, supplied by the caller: `check` is what building a
      request with the given method and URL may reject (an unparsable URL),
      `send` performs a request. */
  datatype Client = Client(check: (string, string) -> Option<Error>, send: Outgoing -> Response)

  /** Both actions treat a status below 300 as success. */
  predicate Succeeded(status: int) {
    status < 300
  }
}

=== FILE: keyorder.dfy ===
/** The order in which the store's cursors visit keys. The store compares
    keys byte by byte; for UTF-8 text that is the lexicographic order of the
    characters' code points, with a proper prefix first. */
module KeyOrder {

  /** `a` sorts strictly before `b`. */
  predicate Below(a: string, b: string)
    decreases |a|
  {
    if a == [] then b != []
    else if b == [] then false
    else if a[0] == b[0] then Below(a[1..], b[1..])
    else a[0] < b[0]
  }

  lemma {:induction false} BelowIrreflexive(a: string)
    ensures !Below(a, a)
  {
    if a != [] {
      BelowIrreflexive(a[1..]);
    }
  }

  lemma {:induction false} BelowTransitive(a: string, b: string, c: string)
    requires Below(a, b) && Below(b, c)
    ensures Below(a, c)
    decreases |a|
  {
    if a != [] && a[0] == b[0] && b[0] == c[0] {
      BelowTransitive(a[1..], b[1..], c[1..]);
    }
  }

  lemma {:induction false} BelowTotal(a: string, b: string)
    requires a != b
    ensures Below(a, b) || Below(b, a)
    decreases |a|
  {
    if a != [] && b != [] && a[0] == b[0] {
      assert a == [a[0]] + a[1..] && b == [b[0]] + b[1..];
      BelowTotal(a[1..], b[1..]);
    }
  }

  lemma BelowAsymmetric(a: string, b: string)
    requires Below(a, b)
    ensures !Below(b, a)
  {
    if Below(b, a) {
      BelowTransitive(a, b, a);
      BelowIrreflexive(a);
    }
  }

  /** `m` sorts before every other member of `s`. */
  predicate IsLeast(m: string, s: set<string>) {
    m in s && forall x :: x in s && x != m ==> Below(m, x)
  }

  lemma {:induction false} LeastExists(s: set<string>)
    requires s != {}
    ensures exists m :: IsLeast(m, s)
    decreases |s|
  {
    var x :| x in s;
    var rest := s - {x};
    if rest == {} {
      assert s == {x};
      assert IsLeast(x, s);
    } else {
      LeastExists(rest);
      var m :| IsLeast(m, rest);
      if Below(m, x) {
        assert IsLeast(m, s);
      } else {
        BelowTotal(m, x);
        forall y | y in s && y != x
          ensures Below(x, y)
        {
          if y != m {
            BelowTransitive(x, m, y);
          }
        }
        assert IsLeast(x, s);
      }
    }
  }

  /** Strictly ascending: every key sorts before every later one. */
  ghost predicate Ascending(keys: seq<string>) {
    forall i, j :: 0 <= i < j < |keys| ==> Below(keys[i], keys[j])
  }

  /** The members of `s` in the order a cursor visits them, each once. */
  method Sorted(s: set<string>) returns (keys: seq<string>)
    ensures forall k :: k in keys <==> k in s
    ensures Ascending(keys)
    ensures forall i, j :: 0 <= i < j < |keys| ==> keys[i] != keys[j]
  {
    keys := [];
    var rest := s;
    while rest != {}
      invariant rest <= s
      invariant forall k :: k in keys <==> k in s && k !in rest
      invariant Ascending(keys)
      invariant forall i, x :: 0 <= i < |keys| && x in rest ==> Below(keys[i], x)
      decreases rest
    {
      LeastExists(rest);
      var m :| m in rest && IsLeast(m, rest);
      keys := keys + [m];
      rest := rest - {m};
    }
    forall i, j | 0 <= i < j < |keys|
      ensures keys[i] != keys[j]
    {
      BelowIrreflexive(keys[i]);
    }
  }
}

=== FILE: mailgun_validator.dfy ===
/** The Mailgun validator: checks the HMAC-SHA256 signature of the form's
    timestamp and token, and refuses a token it has seen before. */
module MailgunValidator {
  import opened Results
  import opened Store
  import opened Encoding
  import opened Components

  /** The HMAC-SHA256 of a message under a key, supplied by the caller. */
  type Mac = (string, string) -> Bytes

  /** `url.ParseQuery`: the body's form fields, each with all its values in
      order, or the parser's error. Supplied by the caller. */
  type QueryParser = Bytes -> Result<map<string, seq<string>>>

  /** The content type a Mailgun callback must carry, compared verbatim. */
  const FormContentType: string := "application/x-www-form-urlencoded"

  /** The validator's partition: flat configuration entries and the nested
      `tokens` set of tokens already accepted. */
  datatype State = State(config: Bucket, tokens: set<string>)

  /** The stored API key, "" when absent. */
  function Params(h: Hook, st: State): (m: map<string, string>)
    ensures m.Keys == {"apikey"}
  {
    map["apikey" := GetString(st.config, Key(h.id, "apikey"))]
  }

  /** Stores the `apikey` parameter. */
  function Init(h: Hook, params: map<string, string>, st: State): (r: Result<State>)
    ensures r.Err? <==> "apikey" !in params
    ensures r.Err? ==> r.error == Message("apikey is required")
    ensures r.Ok? ==> r.value.tokens == st.tokens
    ensures r.Ok? ==> r.value.config.Keys == st.config.Keys + {Key(h.id, "apikey")}
    ensures r.Ok? ==> forall k :: k in st.config && k != Key(h.id, "apikey") ==>
                        r.value.config[k] == st.config[k]
  {
    if "apikey" !in params then Err(Message("apikey is required"))
    else Ok(st.(config := st.config[Key(h.id, "apikey") := params["apikey"]]))
  }

  /** `form.Get(name)`: the field's first value, "" when it has none. */
  function FormValue(form: map<string, seq<string>>, name: string): string {
    if name in form then FirstValue(form[name]) else ""
  }

  /** The only signature accepted: the lower-case hex HMAC of the timestamp
      followed directly by the token. */
  function ExpectedSignature(hmac: Mac, apikey: string, form: map<string, seq<string>>): string {
    Hex(hmac(apikey, FormValue(form, "timestamp") + FormValue(form, "token")))
  }

  /** Checks, in order: the validator is configured, the content type is the
      form type, the body parses, the signature is the expected one, the
      token is new; then records the token. */
  function Process(h: Hook, r: Request, st: State, hmac: Mac, parse: QueryParser): (res: Result<State>)
    ensures Key(h.id, "apikey") !in st.config ==>
              res == Err(Message("mailgun validator not initialized"))
    ensures Key(h.id, "apikey") in st.config && Header(r, "Content-Type") != FormContentType ==>
              res == Err(UnexpectedContentType(Header(r, "Content-Type")))
    ensures Key(h.id, "apikey") in st.config && Header(r, "Content-Type") == FormContentType
            && parse(r.body).Err? ==>
              res == Err(Wrapped("error parsing request body", Some(parse(r.body).error)))
    ensures Key(h.id, "apikey") in st.config && Header(r, "Content-Type") == FormContentType
            && parse(r.body).Ok?
            && FormValue(parse(r.body).value, "signature")
               != ExpectedSignature(hmac, st.config[Key(h.id, "apikey")], parse(r.body).value) ==>
              res == Err(Message("invalid signature"))
    ensures Key(h.id, "apikey") in st.config && Header(r, "Content-Type") == FormContentType
            && parse(r.body).Ok?
            && FormValue(parse(r.body).value, "signature")
               == ExpectedSignature(hmac, st.config[Key(h.id, "apikey")], parse(r.body).value)
            && FormValue(parse(r.body).value, "token") in st.tokens ==>
              res == Err(Message("duplicate request token received"))
    ensures Key(h.id, "apikey") in st.config && Header(r, "Content-Type") == FormContentType
            && parse(r.body).Ok?
            && FormValue(parse(r.body).value, "signature")
               == ExpectedSignature(hmac, st.config[Key(h.id, "apikey")], parse(r.body).value)
            && FormValue(parse(r.body).value, "token") == "" && "" !in st.tokens ==>
              res == Err(Message("key required"))
    ensures res.Ok? <==>
              && Key(h.id, "apikey") in st.config
              && Header(r, "Content-Type") == FormContentType
              && parse(r.body).Ok?
              && FormValue(parse(r.body).value, "signature")
                 == ExpectedSignature(hmac, st.config[Key(h.id, "apikey")], parse(r.body).value)
              && FormValue(parse(r.body).value, "token") !in st.tokens
              && FormValue(parse(r.body).value, "token") != ""
    ensures res.Ok? ==>
              res.value == st.(tokens := st.tokens + {FormValue(parse(r.body).value, "token")})
  {
    var key := Key(h.id, "apikey");
    if key !in st.config then Err(Message("mailgun validator not initialized"))
    else if Header(r, "Content-Type") != FormContentType then
      Err(UnexpectedContentType(Header(r, "Content-Type")))
    else
      match parse(r.body)
      case Err(e) => Err(Wrapped("error parsing request body", Some(e)))
      case Ok(form) =>
        if FormValue(form, "signature") != ExpectedSignature(hmac, st.config[key], form) then
          Err(Message("invalid signature"))
        else
          var token := FormValue(form, "token");
          if token in st.tokens then Err(Message("duplicate request token received"))
          else
            var tokens :- Insert(st.tokens, token);
            Ok(st.(tokens := tokens))
  }

  /** A correctly signed form whose token was already accepted is refused as
      a duplicate. */
  lemma DuplicateRejected(h: Hook, r: Request, st: State, hmac: Mac, parse: QueryParser)
    requires Key(h.id, "apikey") in st.config
    requires Header(r, "Content-Type") == FormContentType && parse(r.body).Ok?
    requires FormValue(parse(r.body).value, "signature")
             == ExpectedSignature(hmac, st.config[Key(h.id, "apikey")], parse(r.body).value)
    requires FormValue(parse(r.body).value, "token") in st.tokens
    ensures Process(h, r, st, hmac, parse) == Err(Message("duplicate request token received"))
  {
  }

  /** Replaying an accepted callback fails the second time. */
  lemma ReplayRejected(h: Hook, r: Request, st: State, hmac: Mac, parse: QueryParser)
    requires Process(h, r, st, hmac, parse).Ok?
    ensures Process(h, r, Process(h, r, st, hmac, parse).value, hmac, parse)
            == Err(Message("duplicate request token received"))
  {
  }

  /** The signature decides acceptance: a hex signature passes exactly when
      it encodes the HMAC of the timestamp and token. */
  lemma SignatureDeterminesMac(h: Hook, r: Request, st: State, hmac: Mac, parse: QueryParser, mac: Bytes)
    requires Key(h.id, "apikey") in st.config
    requires Header(r, "Content-Type") == FormContentType && parse(r.body).Ok?
    requires FormValue(parse(r.body).value, "signature") == Hex(mac)
    ensures Process(h, r, st, hmac, parse) != Err(Message("invalid signature"))
            <==> mac == hmac(st.config[Key(h.id, "apikey")],
                             FormValue(parse(r.body).value, "timestamp")
                             + FormValue(parse(r.body).value, "token"))
  {
    var form := parse(r.body).value;
    HexInjective(mac, hmac(st.config[Key(h.id, "apikey")],
                           FormValue(form, "timestamp") + FormValue(form, "token")));
  }

  /** The signature covers the concatenation only: moving characters between
      the end of the timestamp and the start of the token keeps the expected
      signature. */
  lemma SignatureCoversConcatenation(hmac: Mac, apikey: string, f1: map<string, seq<string>>,
                                     f2: map<string, seq<string>>)
    requires FormValue(f1, "timestamp") + FormValue(f1, "token")
             == FormValue(f2, "timestamp") + FormValue(f2, "token")
    ensures ExpectedSignature(hmac, apikey, f1) == ExpectedSignature(hmac, apikey, f2)
  {
  }

  /** Only the first value of a repeated field is signed and recorded: a
      body whose fields gain later values is judged like the original. */
  lemma LaterFieldValuesIgnored(h: Hook, r: Request, st: State, hmac: Mac,
                                parse: QueryParser, parse': QueryParser,
                                name: string, later: seq<string>)
    requires parse(r.body).Ok? && name in parse(r.body).value && parse(r.body).value[name] != []
    requires parse'(r.body)
             == Ok(parse(r.body).value[name := parse(r.body).value[name] + later])
    ensures Process(h, r, st, hmac, parse') == Process(h, r, st, hmac, parse)
  {
    var form := parse(r.body).value;
    var form' := parse'(r.body).value;
    forall n ensures FormValue(form', n) == FormValue(form, n) {
    }
  }

  /** After a successful `Init`, `Params` gives back the API key. */
  lemma ParamsAfterInit(h: Hook, params: map<string, string>, st: State)
    requires Init(h, params, st).Ok?
    ensures Params(h, Init(h, params, st).value) == map["apikey" := params["apikey"]]
  {
  }

  /** Configuring one hook leaves every other hook's API key alone. */
  lemma InitIsolated(h: Hook, params: map<string, string>, st: State, other: Hook)
    requires Init(h, params, st).Ok? && other != h
    ensures Params(other, Init(h, params, st).value) == Params(other, st)
  {
    if Key(other.id, "apikey") == Key(h.id, "apikey") {
      KeyInjective(other.id, "apikey", h.id, "apikey");
    }
  }

  /** After `Init`, a correctly signed form with a new token passes. */
  lemma InitThenValid(h: Hook, params: map<string, string>, st: State, r: Request,
                      hmac: Mac, parse: QueryParser)
    requires Init(h, params, st).Ok?
    requires Header(r, "Content-Type") == FormContentType && parse(r.body).Ok?
    requires FormValue(parse(r.body).value, "signature")
             == ExpectedSignature(hmac, params["apikey"], parse(r.body).value)
    requires FormValue(parse(r.body).value, "token") !in st.tokens
    requires FormValue(parse(r.body).value, "token") != ""
    ensures Process(h, r, Init(h, params, st).value, hmac, parse).Ok?
  {
  }
}

=== FILE: rate_limit_filter.dfy ===
/** The rate limiter: admits at most `amount` requests in any `interval`
    seconds, over a sliding window of request timestamps. */
module RateLimitFilter {
  import opened Results
  import opened Store
  import opened Strconv
  import opened Components

  /** The rate limiter's partition: its flat configuration entries and the
      nested `requests` set of timestamps (nanoseconds since the epoch).
      The set is keyed by timestamp alone, so every hook that uses the rate
      limiter shares one window. */
  datatype State = State(config: Bucket, requests: set<int>)

  const NanosPerSecond: int := 1_000_000_000

  /** A configuration value `Init` accepts: an integer above zero. */
  predicate Positive(s: string) {
    Atoi(s).err.None? && Atoi(s).value > 0
  }

  /** The stored configuration, each field "" when absent. */
  function Params(h: Hook, st: State): (m: map<string, string>)
    ensures m.Keys == {"amount", "interval"}
  {
    map["amount" := GetString(st.config, Key(h.id, "amount")),
        "interval" := GetString(st.config, Key(h.id, "interval"))]
  }

  /** Validates and stores `amount` and `interval`, in that order, verbatim. */
  function Init(h: Hook, params: map<string, string>, st: State): (r: Result<State>)
    ensures "amount" !in params ==> r == Err(Message("amount is required"))
    ensures "amount" in params && !Positive(params["amount"]) ==>
              r == Err(Wrapped("amount must be a positive number > 0", Atoi(params["amount"]).err))
    ensures "amount" in params && Positive(params["amount"]) && "interval" !in params ==>
              r == Err(Message("interval is required"))
    ensures "amount" in params && Positive(params["amount"]) && "interval" in params
            && !Positive(params["interval"]) ==>
              r == Err(Wrapped("interval must be a positive number", Atoi(params["interval"]).err))
    ensures r.Ok? <==> "amount" in params && "interval" in params
                       && Positive(params["amount"]) && Positive(params["interval"])
    ensures r.Ok? ==> r.value.requests == st.requests
    ensures r.Ok? ==> r.value.config.Keys
                      == st.config.Keys + {Key(h.id, "amount"), Key(h.id, "interval")}
  {
    if "amount" !in params then Err(Message("amount is required"))
    else
      var amount := params["amount"];
      var a := Atoi(amount);
      if a.err.Some? || a.value <= 0 then Err(Wrapped("amount must be a positive number > 0", a.err))
      else if "interval" !in params then Err(Message("interval is required"))
      else
        var interval := params["interval"];
        var i := Atoi(interval);
        if i.err.Some? || i.value <= 0 then Err(Wrapped("interval must be a positive number", i.err))
        else
          var config := st.config[Key(h.id, "amount") := amount][Key(h.id, "interval") := interval];
          Ok(State(config, st.requests))
  }

  /** The stored limit for `field`, as `Process` reads it: a missing or
      malformed value reads as 0. */
  function Limit(h: Hook, st: State, field: string): int {
    Atoi(GetString(st.config, Key(h.id, field))).value
  }

  predicate Configured(h: Hook, st: State) {
    Limit(h, st, "amount") > 0 && Limit(h, st, "interval") > 0
  }

  /** The earliest timestamp inside the window that ends at `now`. */
  function WindowStart(h: Hook, st: State, now: int): int {
    now - Limit(h, st, "interval") * NanosPerSecond
  }

  /** The timestamps a cursor visits from `from` on: those not before it. */
  function Since(requests: set<int>, from: int): set<int> {
    set t | t in requests && t >= from
  }

  /** Handles one request arriving at time `now`: records `now`, counts the
      recorded timestamps from the window start on, rejects when there are
      more than `amount`, and otherwise drops every timestamp up to and
      including the window start. */
  function Process(h: Hook, r: Request, st: State, now: int): (res: Result<State>)
    ensures !Configured(h, st) <==> res == Err(Message("rate limit filter not initialized"))
    ensures Configured(h, st) ==>
              var count := |Since(st.requests + {now}, WindowStart(h, st, now))|;
              && (res.Err? <==> count > Limit(h, st, "amount"))
              && (res.Err? ==> res.error == RateLimitExceeded(Limit(h, st, "amount"), count))
    ensures res.Ok? ==> res.value.config == st.config
    ensures res.Ok? ==> forall t :: t in res.value.requests <==>
                          (t in st.requests || t == now) && t > WindowStart(h, st, now)
  {
    var amount := Limit(h, st, "amount");
    var interval := Limit(h, st, "interval");
    if amount <= 0 || interval <= 0 then Err(Message("rate limit filter not initialized"))
    else
      var requests := st.requests + {now};
      var from := now - interval * NanosPerSecond;
      var count := |Since(requests, from)|;
      if count > amount then Err(RateLimitExceeded(amount, count))
      else Ok(State(st.config, requests - (set t | t in requests && t <= from)))
  }

  // ---------------------------------------------------------------------
  // Configuration round trip

  /** After a successful `Init`, `Params` gives back what was passed in. */
  lemma ParamsAfterInit(h: Hook, params: map<string, string>, st: State)
    requires Init(h, params, st).Ok?
    ensures Params(h, Init(h, params, st).value)
            == map["amount" := params["amount"], "interval" := params["interval"]]
  {
    var k1, k2 := Key(h.id, "amount"), Key(h.id, "interval");
    KeyDistinct(h.id);
    var c := Init(h, params, st).value.config;
    assert c[k1] == params["amount"];
  }

  lemma KeyDistinct(id: string)
    ensures Key(id, "amount") != Key(id, "interval")
  {
    assert Key(id, "amount")[|id| + 1] == 'a';
    assert Key(id, "interval")[|id| + 1] == 'i';
  }

  /** Configuring one hook leaves every other hook's configuration alone. */
  lemma InitIsolated(h: Hook, params: map<string, string>, st: State, other: Hook)
    requires Init(h, params, st).Ok? && other != h
    ensures Params(other, Init(h, params, st).value) == Params(other, st)
  {
    forall f, g | f in {"amount", "interval"} && g in {"amount", "interval"}
      ensures Key(other.id, f) != Key(h.id, g)
    {
      if Key(other.id, f) == Key(h.id, g) {
        KeyInjective(other.id, f, h.id, g);
      }
    }
  }

  /** Configuring twice keeps only the second configuration. */
  lemma InitOverwrites(h: Hook, p1: map<string, string>, p2: map<string, string>, st: State)
    requires Init(h, p1, st).Ok?
    ensures Init(h, p2, Init(h, p1, st).value) == Init(h, p2, st)
  {
    KeyDistinct(h.id);
    if Init(h, p2, st).Ok? {
      var k1, k2 := Key(h.id, "amount"), Key(h.id, "interval");
      var c1 := Init(h, p1, st).value.config;
      assert c1[k1 := p2["amount"]][k2 := p2["interval"]]
          == st.config[k1 := p2["amount"]][k2 := p2["interval"]];
    }
  }

  /** `Init` accepts the decimal form of every positive 64-bit amount and
      interval. */
  lemma InitAcceptsDecimals(h: Hook, amount: int, interval: int, st: State)
    requires 0 < amount <= MaxInt64 && 0 < interval <= MaxInt64
    ensures Init(h, map["amount" := Itoa(amount), "interval" := Itoa(interval)], st).Ok?
  {
    AtoiItoa(amount);
    AtoiItoa(interval);
  }

  /** `Init` accepts exactly settings written as decimal numbers, with an
      optional sign, whose values lie between 1 and the largest 64-bit
      integer. */
  lemma InitAcceptsExactly(h: Hook, params: map<string, string>, st: State)
    ensures Init(h, params, st).Ok? <==>
              && "amount" in params && "interval" in params
              && IsDecimalText(params["amount"]) && 0 < SignedValue(params["amount"]) <= MaxInt64
              && IsDecimalText(params["interval"]) && 0 < SignedValue(params["interval"]) <= MaxInt64
  {
  }

  /** A configured hook is never reported as not initialized. */
  lemma InitThenConfigured(h: Hook, params: map<string, string>, st: State)
    requires Init(h, params, st).Ok?
    ensures Configured(h, Init(h, params, st).value)
  {
    ParamsAfterInit(h, params, st);
    var st' := Init(h, params, st).value;
    assert GetString(st'.config, Key(h.id, "amount")) == Params(h, st')["amount"];
    assert GetString(st'.config, Key(h.id, "interval")) == Params(h, st')["interval"];
  }

  // ---------------------------------------------------------------------
  // The window

  /** The request being handled is always counted. */
  lemma CountIncludesCurrent(h: Hook, st: State, now: int)
    requires Configured(h, st)
    ensures now in Since(st.requests + {now}, WindowStart(h, st, now))
    ensures |Since(st.requests + {now}, WindowStart(h, st, now))| >= 1
  {
    var w := Since(st.requests + {now}, WindowStart(h, st, now));
    assert now in w;
    assert {now} <= w;
  }

  /** With `amount` = n, once n other requests lie in the window the next
      request is rejected. */
  lemma FullWindowRejects(h: Hook, r: Request, st: State, now: int, seen: set<int>)
    requires Configured(h, st)
    requires seen <= st.requests && now !in seen
    requires forall t :: t in seen ==> t >= WindowStart(h, st, now)
    requires |seen| >= Limit(h, st, "amount")
    ensures Process(h, r, st, now).Err?
  {
    var w := Since(st.requests + {now}, WindowStart(h, st, now));
    assert seen + {now} <= w;
    assert |seen + {now}| == |seen| + 1;
    SubsetCard(seen + {now}, w);
  }

  lemma SubsetCard(a: set<int>, b: set<int>)
    requires a <= b
    ensures |a| <= |b|
  {
    assert b == a + (b - a);
  }

  /** A request whose window holds nothing else is admitted, and afterwards
      the window holds that request alone. */
  lemma EmptyWindowAdmits(h: Hook, r: Request, st: State, now: int)
    requires Configured(h, st)
    requires forall t :: t in st.requests ==> t < WindowStart(h, st, now)
    ensures Process(h, r, st, now).Ok?
    ensures Process(h, r, st, now).value.requests == {now}
  {
    var from := WindowStart(h, st, now);
    var w := Since(st.requests + {now}, from);
    assert now in w;
    assert w == {now};
    var requests := st.requests + {now};
    assert requests - (set t | t in requests && t <= from) == {now};
  }

  /** The settings of the example below read as one and sixty. */
  lemma ExampleSettingsParse()
    ensures Atoi("1") == Parsed(1, None) && Atoi("60") == Parsed(60, None)
  {
    AtoiItoa(1);
    AtoiItoa(60);
  }

  /** The window is shared between hooks: a hook that has never been called
      is rejected because another hook was called a second earlier, both
      being allowed one request per minute. */
  lemma WindowSharedBetweenHooks(r: Request)
    ensures
      var config := map[Key("a", "amount") := "1", Key("a", "interval") := "60",
                        Key("b", "amount") := "1", Key("b", "interval") := "60"];
      var first := Process(Hook("a"), r, State(config, {}), 0);
      && first.Ok?
      && Process(Hook("b"), r, first.value, NanosPerSecond).Err?
  {
    var config := map[Key("a", "amount") := "1", Key("a", "interval") := "60",
                      Key("b", "amount") := "1", Key("b", "interval") := "60"];
    var st := State(config, {});
    ExampleSettingsParse();
    assert Limit(Hook("a"), st, "amount") == 1 && Limit(Hook("a"), st, "interval") == 60;
    assert Limit(Hook("b"), st, "amount") == 1 && Limit(Hook("b"), st, "interval") == 60;
    var first := Process(Hook("a"), r, st, 0);
    assert Since({} + {0}, 0 - 60 * NanosPerSecond) == {0};
    assert first.Ok?;
    var st1 := first.value;
    assert st1.config == config;
    assert 0 in st1.requests;
    var w := Since(st1.requests + {NanosPerSecond}, NanosPerSecond - 60 * NanosPerSecond);
    assert {0, NanosPerSecond} <= w;
    SubsetCard({0, NanosPerSecond}, w);
  }
}

=== FILE: results.dfy ===
/** Optional values, the error values the gateway's operations return, and a
    failure-compatible Result that carries either a value or such an error. */
module Results {

  datatype Option<+T> = None | Some(value: T)

  /** The shapes of the errors the gateway produces. Each constructor stands
      for one way the Go code builds an error value. */
  datatype Error =
      /** `errors.New(text)` */
    | Message(text: string)
      /** `fmt.Errorf(context + ": %s", cause)`; a `None` cause is a nil error,
          which Go formats as `%!s(<nil>)` */
    | Wrapped(context: string, cause: Option<Error>)
      /** `fmt.Errorf(context + ": %d", code)` for an HTTP status code */
    | Status(context: string, code: int)
      /** `fmt.Errorf("rate limit exceeded (limit=%d count=%d)", limit, count)` */
    | RateLimitExceeded(limit: int, count: int)
      /** `fmt.Errorf("unexpected Content-Type: %q", got)` */
    | UnexpectedContentType(got: string)
      /** a `strconv.NumError` whose cause is `ErrSyntax` */
    | Syntax(input: string)
      /** a `strconv.NumError` whose cause is `ErrRange` */
    | Range(input: string)
      /** an error returned unchanged by a library call the model does not look into */
    | Foreign(text: string)

  datatype Result<+T> = Ok(value: T) | Err(error: Error) {

    predicate IsFailure() {
      Err?
    }

    function PropagateFailure<U>(): Result<U>
      requires Err?
    {
      Err(error)
    }

    function Extract(): T
      requires Ok?
    {
      value
    }
  }
}

=== FILE: store.dfy ===
/** The persisted layout shared by the hook store and the components: hook
    identities, a component partition's flat key/value entries, and the
    `"<hook id>-<field>"` keys under which components keep per-hook state. */
module Store {
  import opened Results

  /** A hook, identified by its id (declared alike in `hook_store.go` and
      `admin_handler.go`). */
  datatype Hook = Hook(id: string)

  /** The flat key/value entries of one component type's partition. A key is
      present exactly when it is in the map. */
  type Bucket = map<string, string>

  /** The key under which a component stores `field` for hook `id`. */
  function Key(id: string, field: string): string {
    id + "-" + field
  }

  /** `string(b.Get(key))`: the stored value, or "" when the key is absent. */
  function GetString(b: Bucket, key: string): string {
    if key in b then b[key] else ""
  }

  /** A nested partition used as a set of keys (replay sets). The store
      refuses an empty key with "key required". */
  function Insert(s: set<string>, key: string): (r: Result<set<string>>)
    ensures r.Ok? <==> key != ""
    ensures r.Ok? ==> r.value == s + {key}
    ensures r.Err? ==> r.error == Message("key required")
  {
    if key == "" then Err(Message("key required")) else Ok(s + {key})
  }

  /** A component field name: none of them contains a dash. */
  predicate FieldName(f: string) {
    forall i :: 0 <= i < |f| ==> f[i] != '-'
  }

  /** The text after the last dash of `k` (all of `k` when it has none). */
  function AfterLastDash(k: string): string
    decreases |k|
  {
    if k == [] then []
    else if k[|k| - 1] == '-' then []
    else AfterLastDash(k[..|k| - 1]) + [k[|k| - 1]]
  }

  lemma {:induction false} FieldOfKey(a: string, f: string)
    requires FieldName(f)
    ensures AfterLastDash(Key(a, f)) == f
  {
    if f != [] {
      var f' := f[..|f| - 1];
      assert Key(a, f) == Key(a, f') + [f[|f| - 1]];
      assert Key(a, f)[..|Key(a, f)| - 1] == Key(a, f');
      FieldOfKey(a, f');
    }
  }

  /** Keys of dash-free fields never collide: a key names exactly one hook
      and one field, so hooks cannot see each other's configuration. */
  lemma KeyInjective(a: string, f: string, b: string, g: string)
    requires FieldName(f) && FieldName(g)
    requires Key(a, f) == Key(b, g)
    ensures a == b && f == g
  {
    var k := Key(a, f);
    FieldOfKey(a, f);
    FieldOfKey(b, g);
    assert a == k[..|a|] && b == k[..|b|];
  }
}

=== FILE: strconv.dfy ===
/** Decimal integers as Go's `strconv.Atoi` reads them and `fmt`'s `%d`
    writes them, on a platform where `int` has 64 bits. */
module Strconv {
  import opened Results

  const MaxUint64: int := 0xFFFF_FFFF_FFFF_FFFF
  const MaxInt64: int := 0x7FFF_FFFF_FFFF_FFFF
  const MinInt64: int := -0x8000_0000_0000_0000

  /** The smallest accumulator whose product with 10 overflows 64 bits. */
  const Cutoff: int := MaxUint64 / 10 + 1

  predicate IsDigit(c: char) {
    '0' <= c <= '9'
  }

  function DigitChar(d: int): (c: char)
    requires 0 <= d < 10
    ensures IsDigit(c) && c as int - '0' as int == d
  {
    (d + '0' as int) as char
  }

  predicate AllDigits(t: string) {
    forall i :: 0 <= i < |t| ==> IsDigit(t[i])
  }

  /** The number a string of decimal digits denotes, most significant digit
      first; "" denotes 0. */
  function DigitsValue(t: string): nat
    requires AllDigits(t)
    decreases |t|
  {
    if t == [] then 0
    else DigitsValue(t[..|t| - 1]) * 10 + (t[|t| - 1] as int - '0' as int)
  }

  /** The length of the run of digits `t` starts with. */
  function DigitRun(t: string): (k: nat)
    ensures k <= |t|
    ensures AllDigits(t[..k])
    ensures k < |t| ==> !IsDigit(t[k])
    ensures AllDigits(t) ==> k == |t|
  {
    if t == [] || !IsDigit(t[0]) then 0
    else
      var k := 1 + DigitRun(t[1..]);
      assert t[..k] == [t[0]] + t[1..][..k - 1];
      k
  }

  /** The value of the digits `t` starts with. */
  function LeadingValue(t: string): nat {
    DigitsValue(t[..DigitRun(t)])
  }

  /** `s` without its sign, if it has one. */
  function Magnitude(s: string): string {
    if s != [] && (s[0] == '+' || s[0] == '-') then s[1..] else s
  }

  /** `s` is an optional sign followed by one or more decimal digits. */
  predicate IsDecimalText(s: string) {
    Magnitude(s) != [] && AllDigits(Magnitude(s))
  }

  /** The integer a decimal text denotes. */
  function SignedValue(s: string): int
    requires IsDecimalText(s)
  {
    if s[0] == '-' then -(DigitsValue(Magnitude(s)) as int) else DigitsValue(Magnitude(s))
  }

  /** The outcome of scanning an unsigned decimal: its value, or the kind of
      error `strconv.ParseUint` reports. */
  datatype Unsigned = Value(n: nat) | BadSyntax | OutOfRange

  /** The digit loop of `strconv.ParseUint(s, 10, 64)`, continuing from the
      value `n` accumulated so far. An overflow is reported as soon as it
      happens, before any later character is looked at. */
  function ScanUint(s: string, n: nat): Unsigned
  {
    if s == [] then Value(n)
    else if !IsDigit(s[0]) then BadSyntax
    else if n >= Cutoff then OutOfRange
    else
      var n1 := n * 10 + (s[0] as int - '0' as int);
      if n1 > MaxUint64 then OutOfRange else ScanUint(s[1..], n1)
  }

  function ParseUint(s: string): Unsigned {
    if s == [] then BadSyntax else ScanUint(s, 0)
  }

  /** Scanning a concatenation scans the first part, then goes on from the
      value reached. */
  lemma {:induction false} ScanConcat(a: string, b: string, n: nat)
    ensures ScanUint(a + b, n) ==
              match ScanUint(a, n)
              case Value(m) => ScanUint(b, m)
              case other => other
  {
    if a == [] {
      assert a + b == b;
    } else {
      assert (a + b)[0] == a[0];
      assert (a + b)[1..] == a[1..] + b;
      if IsDigit(a[0]) && n < Cutoff {
        var n1 := n * 10 + (a[0] as int - '0' as int);
        if n1 <= MaxUint64 {
          ScanConcat(a[1..], b, n1);
        }
      }
    }
  }

  /** On a string of digits the scan yields the digits' value, or an
      overflow exactly when that value needs more than 64 bits. */
  lemma {:induction false} ScanDigits(t: string)
    requires AllDigits(t)
    ensures ScanUint(t, 0) == if DigitsValue(t) > MaxUint64 then OutOfRange else Value(DigitsValue(t))
    decreases |t|
  {
    if t != [] {
      var a := t[..|t| - 1];
      var c := t[|t| - 1];
      assert t == a + [c];
      ScanConcat(a, [c], 0);
      ScanDigits(a);
      assert [c][1..] == [];
    }
  }

  /** The scan of any string: an overflow within its leading digits comes
      first, then a character that is not a digit, else the value. */
  lemma {:induction false} ScanAny(t: string)
    ensures ScanUint(t, 0) ==
              if LeadingValue(t) > MaxUint64 then OutOfRange
              else if DigitRun(t) < |t| then BadSyntax
              else Value(LeadingValue(t))
  {
    var k := DigitRun(t);
    if k == |t| {
      ScanDigits(t[..k]);
      assert t[..k] == t;
    } else {
      assert t == t[..k] + t[k..];
      ScanStops(t[..k], t[k..]);
    }
  }

  /** Digits followed by a character that is not a digit: an overflow in
      the digits, else a syntax error. */
  lemma {:induction false} ScanStops(p: string, rest: string)
    requires AllDigits(p) && rest != [] && !IsDigit(rest[0])
    ensures ScanUint(p + rest, 0) == if DigitsValue(p) > MaxUint64 then OutOfRange else BadSyntax
  {
    ScanDigits(p);
    ScanConcat(p, rest, 0);
  }

  /** What `strconv.Atoi` returns: the value, and the error when there is one.
      Go returns 0 on a syntax error and the nearest 64-bit bound on an
      out-of-range input, and callers that ignore the error see that value. */
  datatype Parsed = Parsed(value: int, err: Option<Error>)

  /** `strconv.Atoi(s)`. A decimal text within 64 bits reads as its value.
      Anything else is an error: a range error, with the value clamped to the
      bound on the side of the sign, when the leading digits already exceed
      64 bits or a decimal text exceeds the signed range; otherwise a syntax
      error with the value 0. */
  function Atoi(s: string): (r: Parsed)
    ensures MinInt64 <= r.value <= MaxInt64
    ensures r.err.Some? ==> r.err.value in {Syntax(s), Range(s)}
    ensures r.err.None? <==> IsDecimalText(s) && MinInt64 <= SignedValue(s) <= MaxInt64
    ensures r.err.None? ==> r.value == SignedValue(s)
    ensures r.err == Some(Syntax(s)) <==>
              !IsDecimalText(s) && LeadingValue(Magnitude(s)) <= MaxUint64
    ensures r.err == Some(Syntax(s)) ==> r.value == 0
    ensures r.err == Some(Range(s)) ==> s != [] && r.value == (if s[0] == '-' then MinInt64 else MaxInt64)
  {
    if s == [] then Parsed(0, Some(Syntax(s)))
    else
      var neg := s[0] == '-';
      var digits := Magnitude(s);
      ScanAny(digits);
      assert digits[..|digits|] == digits;
      match ParseUint(digits)
      case BadSyntax => Parsed(0, Some(Syntax(s)))
      case OutOfRange =>
        if neg then Parsed(MinInt64, Some(Range(s))) else Parsed(MaxInt64, Some(Range(s)))
      case Value(u) =>
        if !neg && u > MaxInt64 then Parsed(MaxInt64, Some(Range(s)))
        else if neg && u > -MinInt64 then Parsed(MinInt64, Some(Range(s)))
        else Parsed(if neg then -(u as int) else u as int, None)
  }

  /** `fmt.Sprintf("%d", n)` for a non-negative `n`: its digits, without
      leading zeros. */
  function Decimal(n: nat): (s: string)
    ensures |s| >= 1
    ensures AllDigits(s) && DigitsValue(s) == n
    ensures n == 0 || s[0] != '0'
  {
    if n < 10 then [DigitChar(n)]
    else
      var s := Decimal(n / 10) + [DigitChar(n % 10)];
      assert s[..|s| - 1] == Decimal(n / 10);
      s
  }

  function Pow10(k: nat): nat {
    if k == 0 then 1 else 10 * Pow10(k - 1)
  }

  /** A number below 10^width has at most `width` decimal digits. */
  lemma {:induction false} DecimalFits(n: nat, width: nat)
    requires width >= 1
    ensures n < Pow10(width) ==> |Decimal(n)| <= width
    decreases width
  {
    if width == 1 {
      assert Pow10(1) == 10;
    } else if n >= 10 && n < Pow10(width) {
      assert n / 10 < Pow10(width - 1);
      DecimalFits(n / 10, width - 1);
    }
  }

  /** A leading zero does not change the value of a digit string. */
  lemma {:induction false} LeadingZeroValue(t: string)
    requires AllDigits(t)
    ensures AllDigits("0" + t) && DigitsValue("0" + t) == DigitsValue(t)
    decreases |t|
  {
    var z := "0" + t;
    if t == [] {
      assert z[..0] == [];
    } else {
      assert z[..|z| - 1] == "0" + t[..|t| - 1];
      LeadingZeroValue(t[..|t| - 1]);
    }
  }

  /** `fmt.Sprintf("%d", i)`. */
  function Itoa(i: int): string {
    if i < 0 then "-" + Decimal(-i) else Decimal(i)
  }

  /** A digit run that overflows 64 bits is a range error even when a
      character that is not a digit follows it: the scan stops at the
      overflow. */
  lemma OverflowBeforeSyntax(t: string, rest: string)
    requires AllDigits(t) && DigitsValue(t) > MaxUint64
    ensures Atoi(t + rest).err == Some(Range(t + rest))
  {
    var s := t + rest;
    assert t != [] && s[0] == t[0];
    assert Magnitude(s) == s;
    DigitRunCovers(t, rest);
    var k := DigitRun(s);
    assert s[..k][..|t|] == t;
    DigitsPrefixMonotone(s[..k], |t|);
    assert LeadingValue(s) > MaxUint64;
    ScanAny(s);
  }

  /** The leading digit run of a string extends at least over a digit string
      it starts with. */
  lemma {:induction false} DigitRunCovers(t: string, rest: string)
    requires AllDigits(t)
    ensures DigitRun(t + rest) >= |t|
    decreases |t|
  {
    if t != [] {
      assert (t + rest)[0] == t[0];
      assert (t + rest)[1..] == t[1..] + rest;
      DigitRunCovers(t[1..], rest);
    }
  }

  /** Digits appended to a digit string never lower its value. */
  lemma {:induction false} DigitsPrefixMonotone(t: string, j: nat)
    requires AllDigits(t) && j <= |t|
    ensures DigitsValue(t[..j]) <= DigitsValue(t)
    decreases |t|
  {
    if j < |t| {
      var a := t[..|t| - 1];
      assert a[..j] == t[..j];
      DigitsPrefixMonotone(a, j);
    } else {
      assert t[..j] == t;
    }
  }

  /** `Atoi` reads back every 64-bit integer that `%d` writes. */
  lemma AtoiItoa(i: int)
    requires MinInt64 <= i <= MaxInt64
    ensures Atoi(Itoa(i)) == Parsed(i, None)
  {
    if i < 0 {
      assert Itoa(i)[1..] == Decimal(-i);
    }
  }
}

=== FILE: text.dfy ===
/** Character classes used when validating hook identifiers. */
module Text {

  /** Go's `unicode.IsSpace`: the Latin-1 spaces '\t', '\n', '\v', '\f',
      '\r', ' ', U+0085 and U+00A0, and beyond Latin-1 the characters with
      Unicode's White_Space property. */
  predicate IsSpace(c: char) {
    var n := c as int;
    || (9 <= n <= 13) || n == 0x20 || n == 0x85 || n == 0xA0
    || n == 0x1680 || (0x2000 <= n <= 0x200A) || n == 0x2028 || n == 0x2029
    || n == 0x202F || n == 0x205F || n == 0x3000
  }

  /** `strings.TrimSpace(s) == ""`: nothing but white space (or nothing). */
  predicate Blank(s: string) {
    forall i :: 0 <= i < |s| ==> IsSpace(s[i])
  }

  /** A member of the character class `[a-z0-9-]`. */
  predicate IdChar(c: char) {
    ('a' <= c <= 'z') || ('0' <= c <= '9') || c == '-'
  }

  /** The language of `^[a-z0-9-]+$` (in Go's regexp, `$` without the `m`
      flag anchors at the very end of the text). */
  predicate ValidId(s: string) {
    |s| > 0 && forall i :: 0 <= i < |s| ==> IdChar(s[i])
  }

  /** A left-to-right matcher for `^[a-z0-9-]+$`: one class character, then
      the rest of the text must match `[a-z0-9-]*$`. */
  function MatchesIdPattern(s: string): (r: bool)
    ensures r <==> ValidId(s)
  {
    s != [] && IdChar(s[0]) && MatchesIdTail(s[1..])
  }

  function MatchesIdTail(s: string): (r: bool)
    ensures r <==> forall i :: 0 <= i < |s| ==> IdChar(s[i])
  {
    if s == [] then true
    else IdChar(s[0]) && MatchesIdTail(s[1..])
  }

  /** A valid identifier is never blank, so a blank one always fails the
      blank check before the pattern is consulted. */
  lemma ValidIsNotBlank(s: string)
    ensures ValidId(s) ==> !Blank(s)
  {
    if ValidId(s) {
      assert IdChar(s[0]) && !IsSpace(s[0]);
    }
  }
}
